=== FILE: README.md ===
# HMPI water-quality prototype: the data path in Dafny

This project models the deterministic core of the HMPI (Heavy-Metal Pollution
Index) browser prototype, which stores water samples with readings for eight
heavy metals, and proves properties of that model. The model covers:

- **CSV import.** This covers `parseCSV` (single pass) and `parseCSVOptimized`
  (batches of 100 lines). Both:
  - split the text into non-blank lines;
  - read a trimmed, lower-cased header and refuse the file when it is too
    short or lacks `location`, `latitude` or `longitude`;
  - accept or skip each data row by a fixed rule;
  - turn metal fields into numbers with "parse, or 0";
  - append accepted samples in file order and count them.
- **Classification thresholds.** These are the HEI status (10/20), the Cd
  status (5/10), the report's four HPI buckets (15/30/45) and the four
  health-risk levels (30/60/80).
- **Health-risk scoring (`predictHealthRisk`).** This is a weighted sum of
  concentration-to-limit ratios, scaled by 20, capped at 100 and rounded. It
  is banded on the rounded percentage and comes with the ordered list of
  metals above their limit.
- **Form validation (`validateFormData`).** The location must not be blank,
  both coordinates must be present, and at least one metal must parse to a
  positive number. The first failing check decides the outcome.
- **Report and export.** The report gives the count, the average HPI and the
  bucket counts, and refuses an empty collection. The export CSV has a
  15-column header and one line per sample.

Modules, in dependency order:

- `Wrappers`: `Option` and `Result`.
- `Seqs`: a generic filter-and-map with its algebra.
- `Text`: `trim`, ASCII `toLowerCase`, `split` and `join`.
- `Numbers`: "parse or 0", `toFixed` rounding and `Math.min`.
- `Metals`: the eight metals in iteration order, and per-metal records.
- `Samples`: the sample record and the index formulas as parameters.
- `Bands`, `Ingest`, `Form`, `Risk`, `Report`.
- `Roundtrip`: what an import hands to the export.

Things the modelled files call but do not define are parameters:

- `parseFloat` is an abstract `string -> Option<real>`; `None` stands for NaN.
- `calculateHPI`, `calculateHEI` and `calculateContaminationDegree` are
  functions from readings to reals.
- `permissibleLimits` is a `map<Metal, real>`. A metal without an entry, or
  with 0, has no usable limit.
- `getHealthRiskWeight` is a function from metal to real.
- Today's date is a string, read once per import (see "Left out").
- Number printing in the export is a function from real to string.

Where the code does something surprising, the model follows the code:

- **Row acceptance.** The code tests the row's FIRST value (`values[0]`), not
  the location column.
- **Risk-factor text.** It shows `ratio * 100`, not the excess over the limit,
  `(ratio - 1) * 100`. `Risk.FactorShowsRatio` and `Risk.FactorAtOneAndAHalf`
  state the consequence.
- **Empty collection.** The report refuses it rather than reporting an average
  of 0.
- **Banding of the risk level.** It uses the percentage after `toFixed(0)`
  rounding.

Other decisions:

- **Duplicate header names.** The last column so named provides the field,
  because `data[header] = ...` overwrites.
- **Missing inputs and columns.** `validateFormData` (through `?.`) and the
  CSV importer (for a column the header lacks) read a missing input as
  `undefined`. Every use (`parseFloat`, `||`, `!`) treats it like the empty
  string, so the model reads it as "", and `parseFloat("")` is NaN, so such
  a reading is 0. `predictHealthRisk` reads its metal inputs without `?.`;
  see "Left out".
- **Which `validateFormData`.** `predictHealthRisk` (SIH.js/main.js:243)
  calls `validateFormData`, which SIH.js/main.js does not define. The model
  uses the definition in SRC/js/main.js:491-520.
- **Batches.** Each batch of the optimized importer runs to completion before
  the next begins, so the chain of `setTimeout` calls is a plain loop. The
  windows it processes are returned alongside the result.

## Model

| member | source | states |
|---|---|---|
| Text.Trim | SIH.js/main.js:113 | `trim` keeps the infix between the first and last non-white-space characters; everything cut is white space; the result is empty exactly for blank text |
| Text.Split | SIH.js/main.js:102 | `split(',')` yields at least one piece and no piece contains the separator |
| Text.JoinSplit | SIH.js/main.js:102 | joining the pieces of a split with the separator gives back the original text |
| Text.SplitJoin | SIH.js/main.js:320 | splitting a join of separator-free pieces gives back the pieces, as for the export header |
| Text.Lower | SIH.js/main.js:102 | `toLowerCase` keeps the length, maps each character, and leaves no upper-case ASCII letter |
| Numbers.ParseOr0 | SIH.js/main.js:131-138 | `parseFloat(x) \|\| 0` is the parsed number when there is one (negatives kept) and 0 otherwise, in particular 0 for the empty string |
| Numbers.Round | SIH.js/main.js:270 | `toFixed(0)` gives an integer within 1/2 of the value, with ties away from zero |
| Numbers.RoundMonotone | SIH.js/main.js:270 | rounding never reverses the order of two values |
| Numbers.ToFixed | SIH.js/main.js:351 | `toFixed(d)` is the value shifted d decimal places, rounded half away from zero and shifted back; so it is within half a unit of the last shown decimal and keeps a non-negative value non-negative |
| Metals.Index | SIH.js/main.js:259 | each metal has a position in the iteration order lead, mercury, cadmium, arsenic, chromium, copper, zinc, nickel |
| Bands.HeiStatusOf | SIH.js/main.js:229 | Acceptable exactly below 10, Moderate exactly on [10, 20), High exactly from 20 on |
| Bands.CdStatusOf | SIH.js/main.js:234 | Low exactly below 5, Moderate exactly on [5, 10), High exactly from 10 on |
| Bands.HpiBucketOf | SIH.js/main.js:353-362 | every HPI value is in exactly one of the four report buckets |
| Bands.RiskLevelOf | SIH.js/main.js:273-285 | Low exactly below 30, Moderate on [30, 60), High on [60, 80), Critical from 80 on |
| Bands.HeiStatusMonotone | SIH.js/main.js:229 | a larger HEI never gets a better status |
| Bands.CdStatusMonotone | SIH.js/main.js:234 | a larger Cd never gets a better status |
| Bands.HpiBucketMonotone | SIH.js/main.js:353-362 | a larger HPI never lands in a better bucket |
| Bands.RiskLevelMonotone | SIH.js/main.js:273-285 | a larger percentage never gets a lower risk level |
| Seqs.FilterMapAppend | SIH.js/main.js:112-150 | keeping and converting rows distributes over concatenation, so file order is kept |
| Seqs.FilterMapMembership | SIH.js/main.js:112-150 | a value is kept exactly when some element yields it |
| Seqs.FilterMapIdentity | SIH.js/main.js:96 | a filter that keeps every element as it is returns its input unchanged |
| Ingest.Lines | SIH.js/main.js:96 | the non-blank pieces of `split('\n')`, in order; none holds a line break |
| Ingest.NonBlank | SIH.js/main.js:96 | the kept pieces are exactly the input pieces that are not blank |
| Ingest.NonBlankAppend | SIH.js/main.js:96 | filtering two runs of lines in turn equals filtering them together, so line order is kept |
| Ingest.NonBlankSingle | SIH.js/main.js:96 | a single line is kept, unchanged, exactly when it is not blank |
| Ingest.NonBlankKeepsAll | SIH.js/main.js:96 | when no line is blank every line is kept, in order and with its repetitions |
| Ingest.Headers | SIH.js/main.js:102 | one header per comma piece of the first line, trimmed and lower-cased |
| Ingest.Values | SIH.js/main.js:113 | one value per comma piece of a row, trimmed; a row always has at least one value |
| Ingest.Missing | SIH.js/main.js:103-104 | the missing list is empty exactly when the header names location, latitude and longitude |
| Ingest.MissingFrom | SIH.js/main.js:104 | a required field is reported exactly when the header lacks it |
| Ingest.MissingFromAppend | SIH.js/main.js:104 | filtering a concatenation of required lists filters each in turn, keeping their order |
| Ingest.MissingInOrder | SIH.js/main.js:103-107 | the missing fields are listed in the order location, latitude, longitude, each exactly when the header lacks it |
| Ingest.Field | SIH.js/main.js:115-118 | the value under the last column with that name, or "" when no column has the name |
| Ingest.ReadingsOf | SIH.js/main.js:130-139 | each metal reading is its column parsed, or 0; a metal with no column reads 0 |
| Ingest.DateOr | SIH.js/main.js:129 | the row's date when given, otherwise today |
| Ingest.RowSample | SIH.js/main.js:112-146 | a sample exactly when the row has enough values, a non-empty first value, and a latitude and longitude that parse; its fields are the row's fields, parsed or defaulted, a metal with no column reading 0, with indices from the index formulas |
| Ingest.AcceptedAppend | SIH.js/main.js:112-150 | importing two blocks of rows in turn appends what importing them together appends |
| Ingest.AcceptedMembership | SIH.js/main.js:112-148 | a sample is appended exactly when some data row yields it |
| Ingest.AcceptedAll | SIH.js/main.js:112-149 | the count equals the number of data rows exactly when every row is accepted |
| Ingest.AcceptedNone | SIH.js/main.js:153-160 | nothing is appended ("no valid data") exactly when every row is skipped |
| Ingest.Import | SIH.js/main.js:95-161 | the file is refused, leaving the collection unchanged, exactly when it has fewer than two non-blank lines or lacks a required column, and the error names the missing columns; otherwise the accepted samples are appended after the existing ones in file order; the count is the number appended and decides between "imported" and "no valid data" |
| Ingest.ParseCsv | SIH.js/main.js:111-160 | the single loop over the data rows produces exactly the import described by `Ingest.Import` |
| Ingest.Windows | SRC/js/main.js:424-427 | every batch lies within the lines from its starting line to the last |
| Ingest.WindowsShape | SRC/js/main.js:422-470 | batches run over [start, min(start + 100, n)) and are never empty; each starts where the previous ended; the first starts at the given line and the last ends at the last line |
| Ingest.BatchesEqualSinglePass | SRC/js/main.js:424-470 | the samples appended batch after batch equal those appended by one pass over the same lines |
| Ingest.ProcessBatch | SRC/js/main.js:424-466 | one batch appends the samples of exactly its own rows and counts them |
| Ingest.RunBatches | SRC/js/main.js:468-487 | the chain of batches starting at line 1 appends every accepted row once, in order, and processes exactly the windows of 100 |
| Ingest.ParseCsvOptimized | SRC/js/main.js:405-488 | the batched importer refuses exactly the files the single-pass one refuses, before any batch runs; otherwise it appends and counts exactly what the single pass does, and decides the notice after the last batch |
| Ingest.ImportedSafe | SIH.js/main.js:113-129 | importing keeps every location and date free of commas and line breaks, given a stand-in date without them |
| Form.SomePositiveFrom | SRC/js/main.js:507-512 | some metal field from a given position on parses to a positive number |
| Form.HasMetalDataIff | SRC/js/main.js:507-512 | the metal check passes exactly when some metal field parses to a number above 0 |
| Form.ValidateFormData | SRC/js/main.js:491-520 | valid exactly when the trimmed location is non-empty, both coordinates are non-empty and some metal parses to a positive number; a blank location is always the reported failure, and missing coordinates are reported exactly when the location is present |
| Form.NoPositiveMetalFails | SRC/js/main.js:507-517 | zero, negative or unparsable metal fields alone never pass validation |
| Form.MetalCheckDecides | SRC/js/main.js:514-519 | once the location and coordinates are present, the metal check alone decides, and its failure is the reported one |
| Risk.FactorFor | SIH.js/main.js:264-265 | the factor names the metal and shows its ratio times 100 rounded to one decimal, so within 0.05 of it |
| Risk.FactorShowsRatio | SIH.js/main.js:265 | every factor shows more than 99.95, about 100 points above the true excess over the limit |
| Risk.FactorAtOneAndAHalf | SIH.js/main.js:265 | a reading 50% above its limit is reported as about 150% above it |
| Risk.FactorsFrom | SIH.js/main.js:259-266 | the factors are exactly the metals with a usable limit, a positive reading and a ratio above 1, in iteration order |
| Risk.Assess | SIH.js/main.js:256-285 | the percentage is `min(score * 20, 100)` rounded half away from zero, and at most 100; the level bands the rounded percentage; the factors are exactly the metals above their limit, in iteration order, each showing its ratio times 100 to one decimal as `Risk.FactorFor` gives it |
| Risk.ScoreNonNegative | SIH.js/main.js:256-268 | with positive limits and non-negative weights no metal lowers the score, which stays at or above 0 |
| Risk.PercentageInRange | SIH.js/main.js:270 | with positive limits and non-negative weights the percentage is between 0 and 100 |
| Risk.OtherContributionUnchanged | SIH.js/main.js:259-262 | changing one metal's reading leaves every other metal's contribution as it was |
| Risk.ContributionMonotone | SIH.js/main.js:260-262 | raising one reading never lowers any metal's contribution |
| Risk.ScoreMonotone | SIH.js/main.js:256-268 | raising one concentration never lowers the risk score |
| Risk.LevelMonotone | SIH.js/main.js:256-285 | raising one concentration never lowers the percentage or the risk level |
| Risk.NothingCountsIsLowRisk | SIH.js/main.js:260 | when no metal has both a positive reading and a usable limit, the score is 0 and the level is Low |
| Risk.PanelWithinLimitsIff | SIH.js/main.js:292-298 | the "within acceptable limits" panel is shown exactly when no metal exceeds its limit |
| Risk.FormReadings | SIH.js/main.js:245-254 | each form reading is its field parsed, or 0; an empty field reads 0 |
| Risk.PredictHealthRisk | SIH.js/main.js:242-285 | no prediction exactly when validation fails; otherwise the assessment of the form's readings, at least one of which is positive |
| Report.HpiOf | SIH.js/main.js:351 | the stored HPI, or the formula's value when the stored one is 0 |
| Report.BucketCountsPartition | SIH.js/main.js:353-362 | the four bucket counts add up to the number of samples |
| Report.CountMatchesClassifier | SIH.js/main.js:353-362 | each bucket's count is the number of samples whose HPI falls in that bucket |
| Report.GenerateReport | SIH.js/main.js:343-362 | refused exactly on an empty collection; otherwise it gives the sample count, the average HPI times the count equal to the HPI sum, a displayed average that is the average rounded to two decimals, so within 0.005, and bucket counts that add up to the count |
| Report.SumBounds | SIH.js/main.js:351 | the sum of n values within [lo, hi] lies within [n * lo, n * hi] |
| Report.AverageBetween | SIH.js/main.js:351 | the average HPI lies between any lower and upper bound of the samples' HPI |
| Report.HeaderLayout | SIH.js/main.js:320 | the export header has no line break and splits at commas into the 15 column names |
| Report.ExportResults | SIH.js/main.js:314-330 | the export is refused exactly on an empty collection |
| Report.ExportLineLayout | SIH.js/main.js:329 | a sample line has no line break and splits at commas into the quoted location, the date and the 13 printed numbers, when location, date and printed numbers hold no comma or line break |
| Report.SplitTerminated | SIH.js/main.js:320-330 | text built from lines each ending in a line break splits back into those lines plus a final empty piece |
| Report.ExportLineNoBreak | SIH.js/main.js:329 | a sample whose location, date and printed numbers hold no line break exports to a single line, even when the location holds commas |
| Report.ExportLayout | SIH.js/main.js:320-330 | when no location, date or printed number holds a line break (commas allowed), the export splits at line breaks into the header, one line per sample in collection order, and a final empty piece |
| Report.ExportShape | SIH.js/main.js:314-330 | a non-empty collection whose locations, dates and printed numbers hold no comma or line break exports to text that splits back into the header and one line per sample, each line into that sample's fields |
| Roundtrip.ImportThenExport | SIH.js/main.js:95-161 | after a successful import into an empty collection, the export has one line per imported sample after the header, and each splits at commas into that sample's fields |

## Left out

- **Presentation and I/O.** The DOM, the Leaflet map, Chart.js,
  notifications, FileReader, Blob downloads and the report's HTML are not
  modelled. The model returns what they would display: the notice, the
  assessment and the summary.
- **Timing.** The `setTimeout` and `requestAnimationFrame` scheduling of the
  batched importer is not modelled; batches run as a plain loop.
  `debounce`, `throttle` and `animateCounter` are also left out.
- **The file-size guard** in `processFile` (SRC/js/main.js:384) is file-handling
  plumbing.
- **server/server.js**: its HTTP routes and database set-up are not part of
  this model.
- **External formulas and tables.** `calculateHPI`, `calculateHEI`,
  `calculateContaminationDegree`, `getWaterQualityStatus`,
  `getHealthRiskWeight`, `permissibleLimits` and `updateLeaderboards` are not
  defined in the modelled files. The formulas, weights and limits are parameters. The
  HPI status shown by `displayResults` and the leaderboard ordering are not
  modelled.
- **IEEE-754 numbers.** NaN, infinities, binary floating point and the prefix
  semantics of `parseFloat` are replaced by exact reals and an abstract
  parser.
- **NaN in the report.** A NaN HPI, which JavaScript leaves out of every
  bucket, is not representable.
- **Unicode case mapping.** `toLowerCase` is modelled for ASCII letters only.
- **Status CSS classes.** The classes chosen next to each band are not
  modelled.
- **Risk-factor text.** Only the metal and the shown percentage are kept; the
  capitalised label and the surrounding words are not.
- **Manual entry.** The manual entry path (`calculateIndices`) beyond
  `validateFormData` is not modelled.
- **Missing `indices` in the export.** The export's fallback for a sample
  without `indices` is not modelled: every modelled sample carries its indices.
- **Interleaving between batches.** Other code running between two batches
  of the optimized importer is not modelled.
- Risk.ScoreMonotone: stated only for limits that are positive when present
  and weights that are not negative. With a negative limit or weight, raising
  a reading can lower the score.
- Risk.PercentageInRange: the lower bound 0 is stated under the same
  condition. Without it the score can be negative, and the code then shows a
  negative percentage.
- Risk.PredictHealthRisk: a missing metal input element throws a TypeError
  in the code (SIH.js/main.js:246-253), and no assessment is shown; the
  model assumes every input element exists.
- Bands.HeiStatusOf: negative HEI values are classified Acceptable, as the
  code does (SIH.js/main.js:229).
- **The clock.** Today's date is read once per import and shared by every
  row. The code calls `new Date()` for each accepted row without a date
  (SIH.js/main.js:129, SRC/js/main.js:444), so an import running across
  midnight can stamp two dates; the model stamps one.

=== FILE: bands.dfy ===
/**
 * The fixed classification thresholds of the application. Every band is a
 * half-open interval with its lower bound included, so each number falls in
 * exactly one band, and a larger number never falls in a better band.
 */
module Bands {

  /** Heavy-metal Evaluation Index status, as shown next to the HEI value. */
  datatype HeiStatus = Acceptable | Moderate | High

  /** Contamination-degree status, as shown next to the Cd value. */
  datatype CdStatus = Low | Moderate | High

  /** The four HPI quality buckets counted in the report. */
  datatype HpiBucket = Excellent | Good | Poor | VeryPoor

  /** Health-risk level of the risk prediction. */
  datatype RiskLevel = LowRisk | ModerateRisk | HighRisk | CriticalRisk

  /** HEI: below 10 Acceptable, below 20 Moderate, otherwise High. */
  function HeiStatusOf(hei: real): (b: HeiStatus)
    ensures b == HeiStatus.Acceptable <==> hei < 10.0
    ensures b == HeiStatus.Moderate <==> 10.0 <= hei < 20.0
    ensures b == HeiStatus.High <==> 20.0 <= hei
  {
    if hei < 10.0 then HeiStatus.Acceptable
    else if hei < 20.0 then HeiStatus.Moderate
    else HeiStatus.High
  }

  /** Cd: below 5 Low, below 10 Moderate, otherwise High. */
  function CdStatusOf(cd: real): (b: CdStatus)
    ensures b == CdStatus.Low <==> cd < 5.0
    ensures b == CdStatus.Moderate <==> 5.0 <= cd < 10.0
    ensures b == CdStatus.High <==> 10.0 <= cd
  {
    if cd < 5.0 then CdStatus.Low
    else if cd < 10.0 then CdStatus.Moderate
    else CdStatus.High
  }

  /** The report's HPI filters: below 15, [15, 30), [30, 45), and 45 or more. */
  predicate InBucket(hpi: real, b: HpiBucket) {
    match b
    case Excellent => hpi < 15.0
    case Good => hpi >= 15.0 && hpi < 30.0
    case Poor => hpi >= 30.0 && hpi < 45.0
    case VeryPoor => hpi >= 45.0
  }

  /** The one report bucket an HPI value falls in. */
  function HpiBucketOf(hpi: real): (b: HpiBucket)
    ensures InBucket(hpi, b)
    ensures forall other: HpiBucket :: InBucket(hpi, other) ==> other == b
  {
    if hpi < 15.0 then Excellent
    else if hpi < 30.0 then Good
    else if hpi < 45.0 then Poor
    else VeryPoor
  }

  /** Risk level of a (rounded) risk percentage: below 30, 60, 80, otherwise Critical. */
  function RiskLevelOf(percentage: int): (b: RiskLevel)
    ensures b == LowRisk <==> percentage < 30
    ensures b == ModerateRisk <==> 30 <= percentage < 60
    ensures b == HighRisk <==> 60 <= percentage < 80
    ensures b == CriticalRisk <==> 80 <= percentage
  {
    if percentage < 30 then LowRisk
    else if percentage < 60 then ModerateRisk
    else if percentage < 80 then HighRisk
    else CriticalRisk
  }

  /** Severity ranks: 0 is the best band. */
  function HeiRank(b: HeiStatus): nat {
    match b
    case Acceptable => 0
    case Moderate => 1
    case High => 2
  }

  function CdRank(b: CdStatus): nat {
    match b
    case Low => 0
    case Moderate => 1
    case High => 2
  }

  function HpiRank(b: HpiBucket): nat {
    match b
    case Excellent => 0
    case Good => 1
    case Poor => 2
    case VeryPoor => 3
  }

  function RiskRank(b: RiskLevel): nat {
    match b
    case LowRisk => 0
    case ModerateRisk => 1
    case HighRisk => 2
    case CriticalRisk => 3
  }

  /** A larger HEI never gets a better status. */
  lemma HeiStatusMonotone(x: real, y: real)
    requires x <= y
    ensures HeiRank(HeiStatusOf(x)) <= HeiRank(HeiStatusOf(y))
  {
  }

  /** A larger Cd never gets a better status. */
  lemma CdStatusMonotone(x: real, y: real)
    requires x <= y
    ensures CdRank(CdStatusOf(x)) <= CdRank(CdStatusOf(y))
  {
  }

  /** A larger HPI never lands in a better report bucket. */
  lemma HpiBucketMonotone(x: real, y: real)
    requires x <= y
    ensures HpiRank(HpiBucketOf(x)) <= HpiRank(HpiBucketOf(y))
  {
  }

  /** A larger risk percentage never gets a lower risk level. */
  lemma RiskLevelMonotone(p: int, q: int)
    requires p <= q
    ensures RiskRank(RiskLevelOf(p)) <= RiskRank(RiskLevelOf(q))
  {
  }
}

=== FILE: form.dfy ===
/**
 * validateFormData: the check run before the manual-entry form is used.
 * Fields are the raw input strings; a missing input element reads like an
 * empty string.
 */
module Form {
  import opened Text
  import opened Numbers
  import opened Metals

  /** The manual-entry form's text fields. */
  datatype FormFields = FormFields(location: string, latitude: string, longitude: string,
                                   metals: PerMetal<string>)

  /** The outcome of validation: valid, or the first complaint shown. */
  datatype FormCheck = Valid | NeedLocation | NeedCoordinates | NeedMetal

  /** metalIds.some(...): some metal field, in MetalOrder from index `k` on, parses to a positive number. */
  function SomePositiveFrom(parse: Parser, metals: PerMetal<string>, k: nat): (b: bool)
    requires k <= |MetalOrder|
    ensures b <==> exists j :: k <= j < |MetalOrder| && IsPositiveReading(parse, metals.Get(MetalOrder[j]))
    decreases |MetalOrder| - k
  {
    if k == |MetalOrder| then false
    else IsPositiveReading(parse, metals.Get(MetalOrder[k])) || SomePositiveFrom(parse, metals, k + 1)
  }

  /** At least one metal field holds a positive number. */
  predicate HasMetalData(parse: Parser, metals: PerMetal<string>) {
    SomePositiveFrom(parse, metals, 0)
  }

  /** HasMetalData holds exactly when some metal's field parses to a positive number. */
  lemma HasMetalDataIff(parse: Parser, metals: PerMetal<string>)
    ensures HasMetalData(parse, metals) <==> exists m: Metal :: IsPositiveReading(parse, metals.Get(m))
  {
    if exists m: Metal :: IsPositiveReading(parse, metals.Get(m)) {
      var m: Metal :| IsPositiveReading(parse, metals.Get(m));
      assert MetalOrder[Index(m)] == m;
    }
  }

  /**
   * The three checks in order: a location that is not blank, both
   * coordinate fields non-empty, then some positive metal reading. The first
   * failing check decides the outcome.
   */
  function ValidateFormData(form: FormFields, parse: Parser): (c: FormCheck)
    ensures c == Valid <==>
              && Trim(form.location) != ""
              && form.latitude != "" && form.longitude != ""
              && exists j :: 0 <= j < |MetalOrder| && IsPositiveReading(parse, form.metals.Get(MetalOrder[j]))
    ensures c == NeedLocation <==> IsBlank(form.location)
    ensures c == NeedCoordinates <==> !IsBlank(form.location) && (form.latitude == "" || form.longitude == "")
  {
    if Trim(form.location) == "" then NeedLocation
    else if form.latitude == "" || form.longitude == "" then NeedCoordinates
    else if !HasMetalData(parse, form.metals) then NeedMetal
    else Valid
  }

  /**
   * Zero, negative or unparsable metal fields never pass the metal check,
   * whatever the other fields hold.
   */
  lemma NoPositiveMetalFails(form: FormFields, parse: Parser)
    requires forall m: Metal :: !IsPositiveReading(parse, form.metals.Get(m))
    ensures ValidateFormData(form, parse) != Valid
  {
    HasMetalDataIff(parse, form.metals);
  }

  /** With location and coordinates present, the metal check alone decides. */
  lemma MetalCheckDecides(form: FormFields, parse: Parser)
    requires !IsBlank(form.location) && form.latitude != "" && form.longitude != ""
    ensures ValidateFormData(form, parse) == Valid <==>
            exists m: Metal :: IsPositiveReading(parse, form.metals.Get(m))
    ensures ValidateFormData(form, parse) != Valid ==> ValidateFormData(form, parse) == NeedMetal
  {
    HasMetalDataIff(parse, form.metals);
  }
}

=== FILE: ingest.dfy ===
/**
 * CSV import: parseCSV (single pass) and parseCSVOptimized (windows of 100
 * rows). Both split the text into non-blank lines, read a trimmed,
 * lower-cased header, refuse the whole file when it is too short or lacks a
 * required column, and otherwise append one sample per accepted data row,
 * in file order, counting them.
 */
module Ingest {
  import opened Wrappers
  import opened Text
  import opened Numbers
  import opened Metals
  import opened Samples
  import opened Seqs

  /** Rows handled by one batch of the optimized importer. */
  const BatchSize: nat := 100

  /** Columns a header must name, in the order they are reported missing. */
  const RequiredFields: seq<string> := ["location", "latitude", "longitude"]

  /**
   * What a row needs from outside the file: parseFloat, the index formulas,
   * and today's date (new Date().toISOString() cut at 'T').
   */
  datatype Env = Env(parse: Parser, engine: IndexEngine, today: string)

  /** Why a whole file is refused. */
  datatype CsvError = TooFewLines | MissingFields(fields: seq<string>)

  /** The notification the import ends with. */
  datatype Notice = Rejected(error: CsvError) | Imported | NoValidData

  /** The collection after an import, how many rows were added, and the closing notice. */
  datatype ImportResult = ImportResult(data: seq<Sample>, processed: nat, notice: Notice)

  /** filter(line => line.trim()) on one piece: kept when something other than white space is left. */
  function KeepLine(p: string): Option<string> {
    if Trim(p) != "" then Some(p) else None
  }

  /** The pieces that are not white space only, in their order, duplicates kept. */
  function NonBlank(parts: seq<string>): (r: seq<string>)
    ensures |r| <= |parts|
    ensures forall p :: p in r <==> p in parts && Trim(p) != ""
    ensures forall i :: 0 <= i < |r| ==> Trim(r[i]) != ""
  {
    NonBlankMembers(parts);
    FilterMap(KeepLine, parts)
  }

  /** The strings kept by the line filter are exactly the non-blank pieces. */
  lemma NonBlankMembers(parts: seq<string>)
    ensures forall p :: p in FilterMap(KeepLine, parts) <==> p in parts && Trim(p) != ""
  {
    forall p ensures p in FilterMap(KeepLine, parts) <==> p in parts && Trim(p) != "" {
      FilterMapMembership(KeepLine, parts, p);
      if p in parts && Trim(p) != "" {
        var i :| 0 <= i < |parts| && parts[i] == p;
        assert KeepLine(parts[i]) == Some(p);
      }
    }
  }

  /** Filtering two runs of pieces in turn is filtering them together: order is kept. */
  lemma NonBlankAppend(a: seq<string>, b: seq<string>)
    ensures NonBlank(a + b) == NonBlank(a) + NonBlank(b)
  {
    FilterMapAppend(KeepLine, a, b);
  }

  /** One piece is kept, as it is, exactly when it is not blank. */
  lemma NonBlankSingle(p: string)
    ensures NonBlank([p]) == if Trim(p) != "" then [p] else []
  {
    assert [p][..0] == [];
  }

  /** When no piece is blank, every piece is kept, in order and with its repetitions. */
  lemma NonBlankKeepsAll(parts: seq<string>)
    requires forall i :: 0 <= i < |parts| ==> Trim(parts[i]) != ""
    ensures NonBlank(parts) == parts
  {
    FilterMapIdentity(KeepLine, parts);
  }

  /** The non-blank lines of the text, in order; none of them holds a line break. */
  function Lines(text: string): (r: seq<string>)
    ensures r == NonBlank(Split(text, '\n'))
    ensures forall i :: 0 <= i < |r| ==> '\n' !in r[i] && Trim(r[i]) != ""
  {
    var r := NonBlank(Split(text, '\n'));
    assert forall i :: 0 <= i < |r| ==> r[i] in r;
    r
  }

  /** Column names: the comma-separated pieces of the first line, trimmed and lower-cased. */
  function Headers(line: string): (r: seq<string>)
    ensures |r| == |Split(line, ',')|
    ensures forall i :: 0 <= i < |r| ==> r[i] == Lower(Trim(Split(line, ',')[i]))
  {
    var parts := Split(line, ',');
    seq(|parts|, i requires 0 <= i < |parts| => Lower(Trim(parts[i])))
  }

  /** A data row's values: its comma-separated pieces, trimmed. There is always at least one. */
  function Values(line: string): (r: seq<string>)
    ensures |r| == |Split(line, ',')| >= 1
    ensures forall i :: 0 <= i < |r| ==> r[i] == Trim(Split(line, ',')[i])
  {
    var parts := Split(line, ',');
    seq(|parts|, i requires 0 <= i < |parts| => Trim(parts[i]))
  }

  /** The names of `required` absent from the header, in the order of `required`. */
  function MissingFrom(required: seq<string>, headers: seq<string>): (r: seq<string>)
    ensures forall f :: f in r <==> f in required && f !in headers
    ensures |r| <= |required|
  {
    if |required| == 0 then []
    else (if required[0] in headers then [] else [required[0]]) + MissingFrom(required[1..], headers)
  }

  /** Filtering a concatenation filters each part, keeping their order. */
  lemma {:induction false} MissingFromAppend(a: seq<string>, b: seq<string>, headers: seq<string>)
    ensures MissingFrom(a + b, headers) == MissingFrom(a, headers) + MissingFrom(b, headers)
    decreases |a|
  {
    if |a| == 0 {
      assert a + b == b;
    } else {
      assert (a + b)[0] == a[0] && (a + b)[1..] == a[1..] + b;
      MissingFromAppend(a[1..], b, headers);
    }
  }

  /** The required columns the header lacks. */
  function Missing(headers: seq<string>): (r: seq<string>)
    ensures r == [] <==> forall f :: f in RequiredFields ==> f in headers
  {
    var r := MissingFrom(RequiredFields, headers);
    assert r != [] ==> r[0] in r;
    r
  }

  /** The missing columns are listed location, latitude, longitude, as the message shows them. */
  lemma MissingInOrder(headers: seq<string>)
    ensures Missing(headers) ==
      (if "location" in headers then [] else ["location"])
      + (if "latitude" in headers then [] else ["latitude"])
      + (if "longitude" in headers then [] else ["longitude"])
  {
    MissingFromAppend(["location"], ["latitude", "longitude"], headers);
    MissingFromAppend(["latitude"], ["longitude"], headers);
  }

  /**
   * data[name] after `headers.forEach((h, i) => data[h] = values[i] || '')`:
   * the value under the LAST column so named, or "" (which every caller
   * treats like undefined) when no column has that name.
   */
  function Field(headers: seq<string>, values: seq<string>, name: string): (v: string)
    requires |values| >= |headers|
    ensures name !in headers ==> v == ""
    ensures name in headers ==>
      exists j :: 0 <= j < |headers| && headers[j] == name && v == values[j]
                  && forall k :: j < k < |headers| ==> headers[k] != name
    decreases |headers|
  {
    var n := |headers|;
    if n == 0 then ""
    else if headers[n - 1] == name then values[n - 1]
    else
      NameInFront(headers, name);
      Field(headers[..n - 1], values, name)
  }

  /** A name present in the header but not in its last column is in the columns before it. */
  lemma NameInFront(headers: seq<string>, name: string)
    requires |headers| > 0 && headers[|headers| - 1] != name
    ensures name in headers <==> name in headers[..|headers| - 1]
  {
    if name in headers {
      var j :| 0 <= j < |headers| && headers[j] == name;
      assert headers[..|headers| - 1][j] == name;
    }
  }

  /** The metal readings of a row: each metal column parsed, or 0. */
  function ReadingsOf(headers: seq<string>, values: seq<string>, parse: Parser): (r: Readings)
    requires |values| >= |headers|
    ensures forall m: Metal :: r.Get(m) == ParseOr0(parse, Field(headers, values, Name(m)))
    ensures forall m: Metal :: Name(m) !in headers ==> r.Get(m) == 0.0
  {
    Tabulate((m: Metal) => ParseOr0(parse, Field(headers, values, Name(m))))
  }

  /** data.date || today. */
  function DateOr(field: string, today: string): (d: string)
    ensures field != "" ==> d == field
    ensures field == "" ==> d == today
  {
    if field == "" then today else field
  }

  /** The acceptance rule for one data row. */
  predicate RowAccepted(headers: seq<string>, line: string, parse: Parser) {
    var values := Values(line);
    && |values| >= |headers|
    && values[0] != ""
    && parse(Field(headers, values, "latitude")).Some?
    && parse(Field(headers, values, "longitude")).Some?
  }

  /**
   * One data row: a sample when the row has at least as many values as the
   * header has columns, a non-empty FIRST value, and a latitude and a
   * longitude that parse; otherwise the row is skipped.
   */
  function RowSample(headers: seq<string>, line: string, env: Env): (r: Option<Sample>)
    ensures r.Some? <==> RowAccepted(headers, line, env.parse)
    ensures r.Some? ==>
      var values := Values(line);
      var s := r.value;
      && s.location == Field(headers, values, "location")
      && Some(s.latitude) == env.parse(Field(headers, values, "latitude"))
      && Some(s.longitude) == env.parse(Field(headers, values, "longitude"))
      && s.date == DateOr(Field(headers, values, "date"), env.today)
      && (forall m: Metal :: s.metals.Get(m) == ParseOr0(env.parse, Field(headers, values, Name(m))))
      && (forall m: Metal :: Name(m) !in headers ==> s.metals.Get(m) == 0.0)
      && s.indices == env.engine.Compute(s.metals)
  {
    var values := Values(line);
    if |values| >= |headers| && values[0] != "" then
      var lat := env.parse(Field(headers, values, "latitude"));
      var lng := env.parse(Field(headers, values, "longitude"));
      if lat.None? || lng.None? then None
      else
        var metals := ReadingsOf(headers, values, env.parse);
        Some(Sample(Field(headers, values, "location"), lat.value, lng.value,
                    DateOr(Field(headers, values, "date"), env.today),
                    metals, env.engine.Compute(metals)))
    else None
  }

  /** The row rule as a function of the line alone. */
  function RowParser(headers: seq<string>, env: Env): string -> Option<Sample> {
    line => RowSample(headers, line, env)
  }

  /** The samples of the accepted rows among `rows`, in row order. */
  function Accepted(headers: seq<string>, rows: seq<string>, env: Env): (r: seq<Sample>)
    ensures |r| <= |rows|
  {
    FilterMap(RowParser(headers, env), rows)
  }

  /** Importing two blocks of rows one after the other equals importing them together. */
  lemma AcceptedAppend(headers: seq<string>, a: seq<string>, b: seq<string>, env: Env)
    ensures Accepted(headers, a + b, env) == Accepted(headers, a, env) + Accepted(headers, b, env)
  {
    FilterMapAppend(RowParser(headers, env), a, b);
  }

  /** A sample is imported exactly when some row yields it. */
  lemma AcceptedMembership(headers: seq<string>, rows: seq<string>, env: Env, s: Sample)
    ensures s in Accepted(headers, rows, env) <==>
            exists i :: 0 <= i < |rows| && RowSample(headers, rows[i], env) == Some(s)
  {
    FilterMapMembership(RowParser(headers, env), rows, s);
  }

  /** Every row is imported exactly when the count equals the number of rows. */
  lemma AcceptedAll(headers: seq<string>, rows: seq<string>, env: Env)
    ensures |Accepted(headers, rows, env)| == |rows| <==>
            forall i :: 0 <= i < |rows| ==> RowAccepted(headers, rows[i], env.parse)
  {
    FilterMapKeepsAll(RowParser(headers, env), rows);
  }

  /** Nothing is imported exactly when every row is skipped. */
  lemma AcceptedNone(headers: seq<string>, rows: seq<string>, env: Env)
    ensures Accepted(headers, rows, env) == [] <==>
            forall i :: 0 <= i < |rows| ==> !RowAccepted(headers, rows[i], env.parse)
  {
    FilterMapDropsAll(RowParser(headers, env), rows);
  }

  /** Every value of a line without line breaks fits in one CSV cell. */
  lemma ValuesSafe(line: string)
    requires '\n' !in line
    ensures forall i :: 0 <= i < |Values(line)| ==> CsvSafe(Values(line)[i])
  {
    var parts := Split(line, ',');
    SplitKeepsAbsent(line, ',', '\n');
    forall i | 0 <= i < |parts| ensures CsvSafe(Values(line)[i]) {
      TrimKeepsAbsent(parts[i], ',');
      TrimKeepsAbsent(parts[i], '\n');
    }
  }

  /**
   * A row read from the text yields a sample whose location and date fit in
   * one CSV cell, provided the stand-in date does.
   */
  lemma RowSampleSafe(headers: seq<string>, line: string, env: Env)
    requires '\n' !in line && CsvSafe(env.today)
    ensures RowSample(headers, line, env).Some? ==>
            CsvSafe(RowSample(headers, line, env).value.location) &&
            CsvSafe(RowSample(headers, line, env).value.date)
  {
    if RowSample(headers, line, env).Some? {
      ValuesSafe(line);
    }
  }

  /**
   * The import as a whole: the structural checks first, then every data row,
   * then the closing notice, decided by whether any row was accepted.
   */
  function Import(existing: seq<Sample>, text: string, env: Env): (r: ImportResult)
    ensures |r.data| == |existing| + r.processed && r.data[..|existing|] == existing
    ensures r.notice == Rejected(TooFewLines) <==> |Lines(text)| < 2
    ensures r.notice.Rejected? <==> |Lines(text)| < 2 || Missing(Headers(Lines(text)[0])) != []
    ensures r.notice.Rejected? ==> r.data == existing && r.processed == 0
    ensures |Lines(text)| >= 2 && r.notice.Rejected? ==>
            r.notice.error == MissingFields(Missing(Headers(Lines(text)[0])))
    ensures !r.notice.Rejected? ==>
            r.data[|existing|..] == Accepted(Headers(Lines(text)[0]), Lines(text)[1..], env)
    ensures !r.notice.Rejected? ==> (r.notice == Imported <==> r.processed > 0)
  {
    var lines := Lines(text);
    if |lines| < 2 then ImportResult(existing, 0, Rejected(TooFewLines))
    else
      var headers := Headers(lines[0]);
      var missing := Missing(headers);
      if missing != [] then ImportResult(existing, 0, Rejected(MissingFields(missing)))
      else
        var added := Accepted(headers, lines[1..], env);
        assert (existing + added)[|existing|..] == added;
        ImportResult(existing + added, |added|, if |added| > 0 then Imported else NoValidData)
  }

  /**
   * One iteration of the import loops: the sample `row` yields for rows[i],
   * if any, is pushed and counted. `row` is the row rule of the file being imported.
   */
  method AddRow(row: string -> Option<Sample>, rows: seq<string>, i: nat, existing: seq<Sample>,
                data: seq<Sample>, processed: nat)
    returns (data': seq<Sample>, processed': nat)
    requires i < |rows|
    requires data == existing + FilterMap(row, rows[..i])
    requires processed == |FilterMap(row, rows[..i])|
    ensures data' == existing + FilterMap(row, rows[..i + 1])
    ensures processed' == |FilterMap(row, rows[..i + 1])|
  {
    assert rows[..i + 1][..i] == rows[..i];
    data', processed' := data, processed;
    match row(rows[i])
    case Some(s) =>
      data' := data + [s];
      processed' := processed + 1;
    case None =>
  }

  /** parseCSV: the structural checks, then one loop over every data row, as a single batch. */
  method ParseCsv(existing: seq<Sample>, text: string, env: Env) returns (r: ImportResult)
    ensures r == Import(existing, text, env)
  {
    var lines := Lines(text);
    if |lines| < 2 {
      return ImportResult(existing, 0, Rejected(TooFewLines));
    }
    var headers := Headers(lines[0]);
    var missing := Missing(headers);
    if missing != [] {
      return ImportResult(existing, 0, Rejected(MissingFields(missing)));
    }
    var rows := lines[1..];
    assert rows[..0] == [];
    var data, processed := ProcessBatch(RowParser(headers, env), rows, 0, |rows|, existing, existing, 0);
    assert rows[..|rows|] == rows;
    r := ImportResult(data, processed, if processed > 0 then Imported else NoValidData);
  }

  /** One call of processBatch: the half-open range of line indices it handles. */
  datatype Window = Window(start: nat, end: nat)

  /**
   * The successive batches over lines [start, n): the first covers
   * [start, min(start + 100, n)) and the rest start where it ends.
   */
  function Windows(start: nat, n: nat): (ws: seq<Window>)
    ensures forall k :: 0 <= k < |ws| ==> start <= ws[k].start <= ws[k].end <= n
    decreases n - start
  {
    if start >= n then []
    else
      var end := if start + BatchSize < n then start + BatchSize else n;
      [Window(start, end)] + Windows(end, n)
  }

  /**
   * The shape of the batch schedule: none when there is nothing to do;
   * otherwise the first batch starts at `start` and the last ends at `n`;
   * every batch is non-empty and stops at its start + 100 or at n,
   * whichever is first; and each batch starts where the previous one ended.
   */
  lemma {:induction false} WindowsShape(start: nat, n: nat)
    ensures var ws := Windows(start, n);
      && (start >= n ==> ws == [])
      && (start < n ==> |ws| >= 1 && ws[0].start == start && ws[|ws| - 1].end == n)
      && (forall k :: 0 <= k < |ws| ==>
            ws[k].start < ws[k].end
            && ws[k].end == (if ws[k].start + BatchSize < n then ws[k].start + BatchSize else n))
      && (forall j :: 0 <= j < |ws| - 1 ==> ws[j + 1].start == ws[j].end)
    decreases n - start
  {
    if start < n {
      var end := if start + BatchSize < n then start + BatchSize else n;
      WindowsShape(end, n);
      var ws := Windows(start, n);
      var rest := Windows(end, n);
      assert ws == [Window(start, end)] + rest;
      forall j | 0 <= j < |ws| - 1 ensures ws[j + 1].start == ws[j].end {
        if j > 0 {
          assert ws[j] == rest[j - 1] && ws[j + 1] == rest[j];
        }
      }
    }
  }

  /** The samples a sequence of batches appends, batch after batch. */
  function BatchesAccepted(headers: seq<string>, lines: seq<string>, ws: seq<Window>, env: Env): seq<Sample>
    requires forall k :: 0 <= k < |ws| ==> ws[k].start <= ws[k].end <= |lines|
  {
    if |ws| == 0 then []
    else Accepted(headers, lines[ws[0].start..ws[0].end], env) + BatchesAccepted(headers, lines, ws[1..], env)
  }

  /**
   * Processing the lines in windows of 100 appends exactly what one loop over
   * the same lines appends.
   */
  lemma {:induction false} BatchesEqualSinglePass(headers: seq<string>, lines: seq<string>, start: nat, env: Env)
    requires start <= |lines|
    ensures BatchesAccepted(headers, lines, Windows(start, |lines|), env) == Accepted(headers, lines[start..], env)
    decreases |lines| - start
  {
    var n := |lines|;
    if start == n {
      assert lines[start..] == [];
    } else {
      var end := if start + BatchSize < n then start + BatchSize else n;
      FirstBatch(headers, lines, start, env);
      BatchesEqualSinglePass(headers, lines, end, env);
      SliceSplit(lines, start, end);
      AcceptedAppend(headers, lines[start..end], lines[end..], env);
    }
  }

  /** Peels the first batch off the batches starting at `start`. */
  lemma FirstBatch(headers: seq<string>, lines: seq<string>, start: nat, env: Env)
    requires start < |lines|
    ensures var end := if start + BatchSize < |lines| then start + BatchSize else |lines|;
            BatchesAccepted(headers, lines, Windows(start, |lines|), env)
            == Accepted(headers, lines[start..end], env) + BatchesAccepted(headers, lines, Windows(end, |lines|), env)
  {
  }

  lemma SliceSplit<T>(xs: seq<T>, i: nat, j: nat)
    requires i <= j <= |xs|
    ensures xs[i..] == xs[i..j] + xs[j..]
  {
  }

  /**
   * processBatch's loop over lines [start, end) of the file, given here as the
   * rows [lo, hi) after the header (lo = start - 1, hi = end - 1); each row is
   * added when `row` accepts it.
   */
  method ProcessBatch(row: string -> Option<Sample>, rows: seq<string>, lo: nat, hi: nat,
                      existing: seq<Sample>, data: seq<Sample>, processed: nat)
    returns (data': seq<Sample>, processed': nat)
    requires lo <= hi <= |rows|
    requires data == existing + FilterMap(row, rows[..lo])
    requires processed == |FilterMap(row, rows[..lo])|
    ensures data' == existing + FilterMap(row, rows[..hi])
    ensures processed' == |FilterMap(row, rows[..hi])|
  {
    data', processed' := data, processed;
    var i := lo;
    while i < hi
      invariant lo <= i <= hi
      invariant data' == existing + FilterMap(row, rows[..i])
      invariant processed' == |FilterMap(row, rows[..i])|
    {
      data', processed' := AddRow(row, rows, i, existing, data', processed');
      i := i + 1;
    }
  }

  /** Recording one more window keeps the record a prefix of the full schedule. */
  lemma ScheduleStep(batches: seq<Window>, start: nat, n: nat)
    requires start < n
    requires batches + Windows(start, n) == Windows(1, n)
    ensures var end := if start + BatchSize < n then start + BatchSize else n;
            (batches + [Window(start, end)]) + Windows(end, n) == Windows(1, n)
  {
    var end := if start + BatchSize < n then start + BatchSize else n;
    assert Windows(start, n) == [Window(start, end)] + Windows(end, n);
    assert batches + Windows(start, n) == (batches + [Window(start, end)]) + Windows(end, n);
  }

  /**
   * The chain processBatch(1), processBatch(end of the first), ... over the
   * rows after the header: every batch runs to completion before the next
   * begins, and the last one ends at the last line.
   */
  method RunBatches(row: string -> Option<Sample>, rows: seq<string>, existing: seq<Sample>)
    returns (data: seq<Sample>, processed: nat, batches: seq<Window>)
    ensures data == existing + FilterMap(row, rows)
    ensures processed == |FilterMap(row, rows)|
    ensures batches == Windows(1, |rows| + 1)
  {
    var n := |rows| + 1;
    data, processed, batches := existing, 0, [];
    var start := 1;
    while start < n
      invariant 1 <= start <= n
      invariant data == existing + FilterMap(row, rows[..start - 1])
      invariant processed == |FilterMap(row, rows[..start - 1])|
      invariant batches + Windows(start, n) == Windows(1, n)
      decreases n - start
    {
      var end := if start + BatchSize < n then start + BatchSize else n;
      data, processed := ProcessBatch(row, rows, start - 1, end - 1, existing, data, processed);
      ScheduleStep(batches, start, n);
      batches := batches + [Window(start, end)];
      start := end;
    }
    assert rows[..start - 1] == rows;
    ScheduleDone(batches, start, n);
  }

  /** Once the next batch would start at the last line, the record is the whole schedule. */
  lemma ScheduleDone(batches: seq<Window>, start: nat, n: nat)
    requires start >= n
    requires batches + Windows(start, n) == Windows(1, n)
    ensures batches == Windows(1, n)
  {
    assert Windows(start, n) == [];
    assert batches + [] == batches;
  }

  /**
   * parseCSVOptimized: the same structural checks, then the chain of batches
   * of at most 100 lines starting at line 1; the notice is decided only after
   * the last batch. `batches` records the windows processed, in order, and
   * stays empty when the file is refused.
   */
  method ParseCsvOptimized(existing: seq<Sample>, text: string, env: Env)
    returns (r: ImportResult, batches: seq<Window>)
    ensures r == Import(existing, text, env)
    ensures r.notice.Rejected? ==> batches == []
    ensures !r.notice.Rejected? ==> batches == Windows(1, |Lines(text)|)
  {
    var lines := Lines(text);
    batches := [];
    if |lines| < 2 {
      return ImportResult(existing, 0, Rejected(TooFewLines)), batches;
    }
    var headers := Headers(lines[0]);
    var missing := Missing(headers);
    if missing != [] {
      return ImportResult(existing, 0, Rejected(MissingFields(missing))), batches;
    }
    var data, processed;
    data, processed, batches := RunBatches(RowParser(headers, env), lines[1..], existing);
    r := ImportResult(data, processed, if processed > 0 then Imported else NoValidData);
  }

  /**
   * Importing keeps a collection export-safe: every sample it appends has a
   * location and a date free of commas and line breaks, provided the
   * stand-in date is.
   */
  lemma ImportedSafe(existing: seq<Sample>, text: string, env: Env)
    requires CsvSafe(env.today)
    ensures ExportSafe(existing) ==> ExportSafe(Import(existing, text, env).data)
  {
    var r := Import(existing, text, env);
    if ExportSafe(existing) && !r.notice.Rejected? {
      var lines := Lines(text);
      var headers := Headers(lines[0]);
      var rows := lines[1..];
      var added := r.data[|existing|..];
      forall i | 0 <= i < |r.data|
        ensures CsvSafe(r.data[i].location) && CsvSafe(r.data[i].date)
      {
        var s := r.data[i];
        if i < |existing| {
          assert s == existing[i];
        } else {
          assert s == added[i - |existing|];
          AcceptedMembership(headers, rows, env, s);
          var j :| 0 <= j < |rows| && RowSample(headers, rows[j], env) == Some(s);
          RowSampleSafe(headers, rows[j], env);
        }
      }
    }
  }
}

=== FILE: metals.dfy ===
/**
 * The eight tracked heavy metals, in the order the application lists them
 * (the key order of its `metals` object literals), and records holding one
 * value per metal.
 */
module Metals {

  datatype Metal = Lead | Mercury | Cadmium | Arsenic | Chromium | Copper | Zinc | Nickel

  /** The iteration order of Object.entries over a `metals` object. */
  const MetalOrder: seq<Metal> := [Lead, Mercury, Cadmium, Arsenic, Chromium, Copper, Zinc, Nickel]

  /** Position of a metal in MetalOrder. */
  function Index(m: Metal): (k: nat)
    ensures k < |MetalOrder| && MetalOrder[k] == m
  {
    match m
    case Lead => 0
    case Mercury => 1
    case Cadmium => 2
    case Arsenic => 3
    case Chromium => 4
    case Copper => 5
    case Zinc => 6
    case Nickel => 7
  }

  /** MetalOrder lists every metal exactly once, so Index inverts it. */
  lemma IndexOfOrder(k: nat)
    requires k < |MetalOrder|
    ensures Index(MetalOrder[k]) == k
  {
  }

  /** The lower-case name used as CSV column and form-field identifier. */
  function Name(m: Metal): (n: string)
    ensures |n| > 0 && forall i :: 0 <= i < |n| ==> 'a' <= n[i] <= 'z'
  {
    match m
    case Lead => "lead"
    case Mercury => "mercury"
    case Cadmium => "cadmium"
    case Arsenic => "arsenic"
    case Chromium => "chromium"
    case Copper => "copper"
    case Zinc => "zinc"
    case Nickel => "nickel"
  }

  /** One value per metal: concentrations, raw form fields, and the like. */
  datatype PerMetal<T> = PerMetal(lead: T, mercury: T, cadmium: T, arsenic: T,
                                  chromium: T, copper: T, zinc: T, nickel: T)
  {
    /** The value held for metal `m`. */
    function Get(m: Metal): T {
      match m
      case Lead => lead
      case Mercury => mercury
      case Cadmium => cadmium
      case Arsenic => arsenic
      case Chromium => chromium
      case Copper => copper
      case Zinc => zinc
      case Nickel => nickel
    }

    /** This record with the value for `m` replaced by `v`, the others untouched. */
    function With(m: Metal, v: T): (r: PerMetal<T>)
      ensures r.Get(m) == v
      ensures forall other: Metal :: other != m ==> r.Get(other) == Get(other)
    {
      match m
      case Lead => this.(lead := v)
      case Mercury => this.(mercury := v)
      case Cadmium => this.(cadmium := v)
      case Arsenic => this.(arsenic := v)
      case Chromium => this.(chromium := v)
      case Copper => this.(copper := v)
      case Zinc => this.(zinc := v)
      case Nickel => this.(nickel := v)
    }
  }

  /** Builds the record whose value for every metal is `f` of that metal. */
  function Tabulate<T>(f: Metal -> T): (r: PerMetal<T>)
    ensures forall m: Metal :: r.Get(m) == f(m)
  {
    PerMetal(f(Lead), f(Mercury), f(Cadmium), f(Arsenic), f(Chromium), f(Copper), f(Zinc), f(Nickel))
  }

  /** Concentrations, one per metal, in the application's common unit. */
  type Readings = PerMetal<real>
}

=== FILE: numbers.dfy ===
/**
 * Numeric coercions of the application: the "parseFloat(x) || 0" rule and
 * the decimal rounding of Number.prototype.toFixed. Numbers are exact reals;
 * parseFloat itself is a parameter (`parse`) returning None for NaN.
 */
module Numbers {
  import opened Wrappers

  /**
   * A parser for decimal text: Some(v) for a number, None where JavaScript
   * yields NaN. parseFloat of the empty text, and of undefined, which the
   * model reads as the empty text, is NaN.
   */
  type Parser = parse: string -> Option<real> | parse("") == None
    witness (s: string) => None

  /**
   * parseFloat(field) || 0: the parsed number, or 0 when the text does not
   * parse. Negative numbers are kept as they are.
   */
  function ParseOr0(parse: Parser, field: string): (v: real)
    ensures parse(field).Some? ==> v == parse(field).value
    ensures parse(field).None? ==> v == 0.0
    ensures field == "" ==> v == 0.0
  {
    parse(field).GetOr(0.0)
  }

  /** A positive reading: parses to a number and that number is above zero. */
  predicate IsPositiveReading(parse: Parser, field: string) {
    parse(field).Some? && parse(field).value > 0.0
  }

  /**
   * Number.prototype.toFixed(0) read back as a number: the nearest integer,
   * ties going away from zero (toFixed rounds the magnitude and keeps the sign).
   */
  function Round(x: real): (n: int)
    ensures (n as real) - 0.5 <= x <= (n as real) + 0.5
    ensures x >= 0.0 ==> n >= 0 && x < (n as real) + 0.5
    ensures x < 0.0 ==> n <= 0 && (n as real) - 0.5 < x
  {
    if x >= 0.0 then (x + 0.5).Floor else -((-x) + 0.5).Floor
  }

  /** Rounding never reverses the order of two numbers. */
  lemma RoundMonotone(x: real, y: real)
    requires x <= y
    ensures Round(x) <= Round(y)
  {
    if x >= 0.0 {
      assert (x + 0.5).Floor <= (y + 0.5).Floor;
    } else if y < 0.0 {
      assert ((-y) + 0.5).Floor <= ((-x) + 0.5).Floor;
    }
  }

  /** 10 to the power `d`. */
  function Pow10(d: nat): (p: real)
    ensures p >= 1.0
  {
    if d == 0 then 1.0 else 10.0 * Pow10(d - 1)
  }

  /** `x` with its decimal point moved `d` places to the right. */
  function Shift(x: real, d: nat): real {
    x * Pow10(d)
  }

  /**
   * Number.prototype.toFixed(d) read back as a number: the shifted value
   * rounded to an integer and shifted back, so within half a unit of the
   * last shown digit.
   */
  function ToFixed(x: real, d: nat): (v: real)
    ensures v == (Round(Shift(x, d)) as real) / Pow10(d)
    ensures x - 0.5 / Pow10(d) <= v <= x + 0.5 / Pow10(d)
    ensures x >= 0.0 ==> v >= 0.0
  {
    RoundedQuotient(x, Pow10(d), Shift(x, d));
    (Round(Shift(x, d)) as real) / Pow10(d)
  }

  /** Rounding `y = x * p` and dividing back by `p` lands within half of 1/p of `x`. */
  lemma RoundedQuotient(x: real, p: real, y: real)
    requires p >= 1.0 && y == x * p
    ensures x - 0.5 / p <= (Round(y) as real) / p <= x + 0.5 / p
    ensures x >= 0.0 ==> (Round(y) as real) / p >= 0.0
  {
    var n := Round(y);
    assert x >= 0.0 ==> y >= 0.0;
    DivideBounds(n as real, y, p);
    assert y / p == x;
    if x >= 0.0 {
      assert (n as real) >= 0.0;
      assert (n as real) / p >= 0.0;
    }
  }

  /** Dividing a bound `|a - b| <= 1/2` through by a positive `p`. */
  lemma DivideBounds(a: real, b: real, p: real)
    requires p > 0.0
    requires a - 0.5 <= b <= a + 0.5
    ensures a / p - 0.5 / p <= b / p <= a / p + 0.5 / p
  {
    assert (a - 0.5) / p == a / p - 0.5 / p;
    assert (a + 0.5) / p == a / p + 0.5 / p;
  }

  /** Math.min on two numbers. */
  function Min(a: real, b: real): (m: real)
    ensures m <= a && m <= b
    ensures m == a || m == b
  {
    if a <= b then a else b
  }
}

=== FILE: report.dfy ===
/**
 * The collection-wide views: the numbers generateReport puts in its report
 * (sample count, average HPI, the four HPI bucket counts) and the CSV text
 * exportResults writes.
 */
module Report {
  import opened Wrappers
  import opened Text
  import opened Numbers
  import opened Metals
  import opened Samples
  import opened Bands

  /** Both views refuse an empty collection. */
  datatype ReportError = NoData

  /** parseFloat(d.indices?.hpi || calculateHPI(d.metals)): a stored 0 is recomputed. */
  function HpiOf(s: Sample, hpi: Readings -> real): (v: real)
    ensures s.indices.hpi != 0.0 ==> v == s.indices.hpi
    ensures s.indices.hpi == 0.0 ==> v == hpi(s.metals)
  {
    if s.indices.hpi != 0.0 then s.indices.hpi else hpi(s.metals)
  }

  /** The HPI of every sample, in collection order. */
  function Hpis(data: seq<Sample>, hpi: Readings -> real): (xs: seq<real>)
    ensures |xs| == |data| && forall i :: 0 <= i < |data| ==> xs[i] == HpiOf(data[i], hpi)
  {
    seq(|data|, i requires 0 <= i < |data| => HpiOf(data[i], hpi))
  }

  /** filter(...).length for one bucket's filter. */
  function CountIn(xs: seq<real>, b: HpiBucket): (n: nat)
    ensures n <= |xs|
  {
    if |xs| == 0 then 0
    else CountIn(xs[..|xs| - 1], b) + (if InBucket(xs[|xs| - 1], b) then 1 else 0)
  }

  /** The four bucket counts of a list of HPI values add up to its length. */
  lemma {:induction false} BucketCountsPartition(xs: seq<real>)
    ensures CountIn(xs, Excellent) + CountIn(xs, Good) + CountIn(xs, Poor) + CountIn(xs, VeryPoor) == |xs|
    decreases |xs|
  {
    if |xs| > 0 {
      BucketCountsPartition(xs[..|xs| - 1]);
      var b := HpiBucketOf(xs[|xs| - 1]);
    }
  }

  /** A bucket's count is the number of values HpiBucketOf puts in that bucket. */
  lemma {:induction false} CountMatchesClassifier(xs: seq<real>, b: HpiBucket)
    ensures CountIn(xs, b) == |set i | 0 <= i < |xs| && HpiBucketOf(xs[i]) == b|
    decreases |xs|
  {
    if |xs| > 0 {
      var n := |xs| - 1;
      CountMatchesClassifier(xs[..n], b);
      var prior := set i | 0 <= i < n && HpiBucketOf(xs[..n][i]) == b;
      var all := set i | 0 <= i < |xs| && HpiBucketOf(xs[i]) == b;
      if HpiBucketOf(xs[n]) == b {
        assert all == prior + {n};
      } else {
        assert all == prior;
      }
    }
  }

  /** The sum of a list of numbers. */
  function Sum(xs: seq<real>): real {
    if |xs| == 0 then 0.0 else Sum(xs[..|xs| - 1]) + xs[|xs| - 1]
  }

  /** A sum of n values within [lo, hi] lies within [n * lo, n * hi]. */
  lemma {:induction false} SumBounds(xs: seq<real>, lo: real, hi: real)
    requires forall i :: 0 <= i < |xs| ==> lo <= xs[i] <= hi
    ensures (|xs| as real) * lo <= Sum(xs) <= (|xs| as real) * hi
    decreases |xs|
  {
    if |xs| > 0 {
      SumBounds(xs[..|xs| - 1], lo, hi);
      assert (|xs| as real) * lo == ((|xs| - 1) as real) * lo + lo;
      assert (|xs| as real) * hi == ((|xs| - 1) as real) * hi + hi;
    }
  }

  /** The bucket counts of the report. */
  datatype Distribution = Distribution(excellent: nat, good: nat, poor: nat, veryPoor: nat)

  /** The numbers of the report. */
  datatype Summary = Summary(total: nat, averageHpi: real, shownAverage: real, distribution: Distribution)

  /**
   * generateReport, without its HTML: refused on an empty collection (so
   * the average never divides by zero); otherwise the count, the average
   * HPI (and its two-decimal display) and the bucket counts, which add up
   * to the count.
   */
  function GenerateReport(data: seq<Sample>, hpi: Readings -> real): (r: Result<Summary, ReportError>)
    ensures r.Failure? <==> |data| == 0
    ensures r.Success? ==>
      var d := r.value.distribution;
      && r.value.total == |data|
      && d.excellent + d.good + d.poor + d.veryPoor == |data|
      && d.excellent == CountIn(Hpis(data, hpi), Excellent)
      && d.good == CountIn(Hpis(data, hpi), Good)
      && d.poor == CountIn(Hpis(data, hpi), Poor)
      && d.veryPoor == CountIn(Hpis(data, hpi), VeryPoor)
      && r.value.averageHpi * (|data| as real) == Sum(Hpis(data, hpi))
      && r.value.shownAverage == (Round(r.value.averageHpi * 100.0) as real) / 100.0
      && r.value.averageHpi - 0.005 <= r.value.shownAverage <= r.value.averageHpi + 0.005
  {
    if |data| == 0 then Failure(NoData)
    else
      var xs := Hpis(data, hpi);
      var avg := Sum(xs) / (|data| as real);
      BucketCountsPartition(xs);
      var shown := ToFixed(avg, 2);
      assert shown == (Round(avg * 100.0) as real) / 100.0 by {
        assert Pow10(2) == 100.0;
        assert Shift(avg, 2) == avg * 100.0;
      }
      Success(Summary(|data|, avg, shown,
                      Distribution(CountIn(xs, Excellent), CountIn(xs, Good), CountIn(xs, Poor), CountIn(xs, VeryPoor))))
  }

  /** The reported average lies between any lower and upper bound of the samples' HPI. */
  lemma AverageBetween(data: seq<Sample>, hpi: Readings -> real, lo: real, hi: real)
    requires |data| > 0
    requires forall i :: 0 <= i < |data| ==> lo <= HpiOf(data[i], hpi) <= hi
    ensures lo <= GenerateReport(data, hpi).value.averageHpi <= hi
  {
    var xs := Hpis(data, hpi);
    SumBounds(xs, lo, hi);
    MeanBetween(Sum(xs), |data| as real, lo, hi);
  }

  /** A total within [n * lo, n * hi] has its mean within [lo, hi]. */
  lemma MeanBetween(total: real, n: real, lo: real, hi: real)
    requires n > 0.0 && n * lo <= total <= n * hi
    ensures lo <= total / n <= hi
  {
    assert total / n - lo == (total - n * lo) / n;
    assert hi - total / n == (n * hi - total) / n;
  }

  /** The column names of the export, in order. */
  const ExportColumns: seq<string> :=
    ["Location", "Date", "Latitude", "Longitude", "HPI", "HEI", "Cd",
     "Lead", "Mercury", "Cadmium", "Arsenic", "Chromium", "Copper", "Zinc", "Nickel"]

  /** Columns of the export. */
  const ExportWidth: nat := 15

  /** The header line of the export: the column names joined by commas. */
  const ExportHeader: string := Join(ExportColumns, ',')

  /** The header line splits back into the fifteen column names and holds no line break. */
  lemma HeaderLayout()
    ensures |ExportColumns| == ExportWidth
    ensures Split(ExportHeader, ',') == ExportColumns
    ensures '\n' !in ExportHeader
  {
    ColumnsSafe();
    SplitJoin(ExportColumns, ',');
    JoinNoBreak(ExportColumns);
  }

  /** No column name holds a comma or a line break. */
  lemma ColumnsSafe()
    ensures forall k :: 0 <= k < |ExportColumns| ==> CsvSafe(ExportColumns[k])
  {
  }

  /** A sample's numbers in export column order: coordinates, indices, then the metals in MetalOrder. */
  function ExportNumbers(s: Sample): (ns: seq<real>)
    ensures |ns| == ExportWidth - 2
  {
    [s.latitude, s.longitude, s.indices.hpi, s.indices.hei, s.indices.cd,
     s.metals.lead, s.metals.mercury, s.metals.cadmium, s.metals.arsenic,
     s.metals.chromium, s.metals.copper, s.metals.zinc, s.metals.nickel]
  }

  /**
   * One sample's values in export column order: the location in double
   * quotes, the date, then its numbers printed by `show` (JavaScript's
   * Number-to-String).
   */
  function ExportFields(s: Sample, show: real -> string): (fs: seq<string>)
    ensures |fs| == ExportWidth
    ensures fs[0] == "\"" + s.location + "\"" && fs[1] == s.date
    ensures forall k :: 2 <= k < ExportWidth ==> fs[k] == show(ExportNumbers(s)[k - 2])
  {
    var ns := ExportNumbers(s);
    ["\"" + s.location + "\"", s.date] + seq(|ns|, i requires 0 <= i < |ns| => show(ns[i]))
  }

  /** One sample's export line. */
  function ExportLine(s: Sample, show: real -> string): string {
    Join(ExportFields(s, show), ',')
  }

  /** The export lines: the header line, then one line per sample in collection order. */
  function ExportLines(data: seq<Sample>, show: real -> string): seq<string> {
    [ExportHeader] + ExportBody(data, show)
  }

  /** Every line followed by a line break, concatenated. */
  function Terminated(lines: seq<string>): string {
    if |lines| == 0 then "" else lines[0] + "\n" + Terminated(lines[1..])
  }

  /** exportResults without the download: refused on an empty collection, else the CSV text. */
  function ExportResults(data: seq<Sample>, show: real -> string): (r: Result<string, ReportError>)
    ensures r.Failure? <==> |data| == 0
  {
    if |data| == 0 then Failure(NoData) else Success(Terminated(ExportLines(data, show)))
  }

  /** Splitting terminated lines at line breaks gives the lines back, plus a final empty piece. */
  lemma {:induction false} SplitTerminated(lines: seq<string>)
    requires forall i :: 0 <= i < |lines| ==> '\n' !in lines[i]
    ensures Split(Terminated(lines), '\n') == lines + [""]
    decreases |lines|
  {
    if |lines| == 0 {
    } else {
      SplitTerminated(lines[1..]);
      SplitPrefix(lines[0], '\n', Terminated(lines[1..]));
      assert lines[0] + "\n" + Terminated(lines[1..]) == lines[0] + ['\n'] + Terminated(lines[1..]);
      assert [lines[0]] + (lines[1..] + [""]) == lines + [""];
    }
  }

  /**
   * When a sample's location, date and printed numbers hold no comma or line
   * break, its export line holds no line break and splits back into exactly
   * its fifteen values, in column order.
   */
  lemma ExportLineLayout(s: Sample, show: real -> string)
    requires CsvSafe(s.location) && CsvSafe(s.date)
    requires forall x: real :: CsvSafe(show(x))
    ensures '\n' !in ExportLine(s, show)
    ensures Split(ExportLine(s, show), ',') == ExportFields(s, show)
  {
    var fs := ExportFields(s, show);
    QuotedSafe(s.location);
    forall k | 0 <= k < |fs| ensures CsvSafe(fs[k]) {
      if k == 0 {
        assert fs[0] == "\"" + s.location + "\"";
        assert CsvSafe(fs[0]);
      } else if k == 1 {
        assert fs[1] == s.date;
        assert CsvSafe(fs[1]);
      } else {
        assert fs[k] == show(ExportNumbers(s)[k - 2]);
        ShownSafe(show, ExportNumbers(s)[k - 2]);
      }
    }
    SplitJoin(fs, ',');
    JoinNoBreak(fs);
  }

  /** No location or date of the collection holds a line break; commas are allowed. */
  predicate LineSafe(data: seq<Sample>) {
    forall i :: 0 <= i < |data| ==> '\n' !in data[i].location && '\n' !in data[i].date
  }

  /**
   * A sample whose location, date and printed numbers hold no line break
   * exports to a single line, commas in the location notwithstanding.
   */
  lemma ExportLineNoBreak(s: Sample, show: real -> string)
    requires '\n' !in s.location && '\n' !in s.date
    requires forall x: real :: '\n' !in show(x)
    ensures '\n' !in ExportLine(s, show)
  {
    var fs := ExportFields(s, show);
    QuotedKeepsAbsent(s.location, '\n');
    forall k | 0 <= k < |fs| ensures '\n' !in fs[k] {
      if k == 0 {
        assert fs[0] == "\"" + s.location + "\"";
      } else if k == 1 {
        assert fs[1] == s.date;
      } else {
        assert fs[k] == show(ExportNumbers(s)[k - 2]);
        ShownNoBreak(show, ExportNumbers(s)[k - 2]);
      }
    }
    JoinNoBreak(fs);
  }

  /**
   * When no location, date or printed number holds a line break, the
   * export text splits at line breaks into the header, one line per sample
   * in collection order, and the empty piece after the final line break.
   */
  lemma ExportLayout(data: seq<Sample>, show: real -> string)
    requires |data| > 0
    requires LineSafe(data)
    requires forall x: real :: '\n' !in show(x)
    ensures Split(ExportResults(data, show).value, '\n') == [ExportHeader] + ExportBody(data, show) + [""]
  {
    var lines := ExportLines(data, show);
    HeaderLayout();
    forall i | 0 <= i < |lines| ensures '\n' !in lines[i] {
      if i > 0 {
        ExportLineNoBreak(data[i - 1], show);
      }
    }
    SplitTerminated(lines);
    assert lines == [ExportHeader] + ExportBody(data, show);
  }

  /**
   * The export reads back as it was written: it is produced, it splits at
   * line breaks into the header, one line per sample and a final empty
   * piece, and every sample line splits at commas into exactly that
   * sample's fields.
   */
  predicate ReadsBack(data: seq<Sample>, show: real -> string) {
    var out := ExportResults(data, show);
    && out.Success?
    && |Split(out.value, '\n')| == |data| + 2
    && Split(out.value, '\n')[0] == ExportHeader
    && forall i :: 0 <= i < |data| ==> Split(Split(out.value, '\n')[i + 1], ',') == ExportFields(data[i], show)
  }

  /**
   * A non-empty collection whose locations, dates and printed numbers hold
   * no comma or line break exports to text that reads back.
   */
  lemma ExportShape(data: seq<Sample>, show: real -> string)
    requires |data| > 0
    requires ExportSafe(data)
    requires forall x: real :: CsvSafe(show(x))
    ensures ReadsBack(data, show)
  {
    var pieces := Split(ExportResults(data, show).value, '\n');
    assert LineSafe(data) by {
      forall i | 0 <= i < |data| ensures '\n' !in data[i].location && '\n' !in data[i].date {
        assert CsvSafe(data[i].location) && CsvSafe(data[i].date);
      }
    }
    forall x: real ensures '\n' !in show(x) {
      ShownSafe(show, x);
    }
    ExportLayout(data, show);
    assert pieces == [ExportHeader] + ExportBody(data, show) + [""];
    forall i | 0 <= i < |data| ensures Split(pieces[i + 1], ',') == ExportFields(data[i], show) {
      assert pieces[i + 1] == ExportLine(data[i], show);
      ExportLineLayout(data[i], show);
    }
  }

  /** The sample lines of the export, in collection order. */
  function ExportBody(data: seq<Sample>, show: real -> string): (body: seq<string>)
    ensures |body| == |data| && forall i :: 0 <= i < |data| ==> body[i] == ExportLine(data[i], show)
  {
    seq(|data|, i requires 0 <= i < |data| => ExportLine(data[i], show))
  }

  /** Instantiates the cleanliness of printed numbers at one number. */
  lemma ShownSafe(show: real -> string, y: real)
    requires forall x: real :: CsvSafe(show(x))
    ensures CsvSafe(show(y))
  {
  }

  /** Instantiates the line-break freedom of printed numbers at one number. */
  lemma ShownNoBreak(show: real -> string, y: real)
    requires forall x: real :: '\n' !in show(x)
    ensures '\n' !in show(y)
  {
  }

  /** Quoting adds no character other than the double quote. */
  lemma QuotedKeepsAbsent(s: string, c: char)
    requires c !in s && c != '"'
    ensures c !in "\"" + s + "\""
  {
    var q := "\"" + s + "\"";
    forall k | 0 <= k < |q| ensures q[k] != c {
      if 0 < k < |q| - 1 { assert q[k] == s[k - 1]; }
    }
  }

  /** Quoting keeps a string clean. */
  lemma QuotedSafe(s: string)
    requires CsvSafe(s)
    ensures CsvSafe("\"" + s + "\"")
  {
    QuotedKeepsAbsent(s, ',');
    QuotedKeepsAbsent(s, '\n');
  }

  /** Joining clean pieces with commas creates no line break. */
  lemma {:induction false} JoinNoBreak(parts: seq<string>)
    requires |parts| >= 1
    requires forall k :: 0 <= k < |parts| ==> '\n' !in parts[k]
    ensures '\n' !in Join(parts, ',')
    decreases |parts|
  {
    if |parts| > 1 {
      JoinNoBreak(parts[1..]);
      var tail := Join(parts[1..], ',');
      assert Join(parts, ',') == parts[0] + [','] + tail;
      forall k | 0 <= k < |parts[0] + [','] + tail| ensures (parts[0] + [','] + tail)[k] != '\n' {
        if k < |parts[0]| { assert (parts[0] + [','] + tail)[k] == parts[0][k]; }
        else if k > |parts[0]| { assert (parts[0] + [','] + tail)[k] == tail[k - |parts[0]| - 1]; }
      }
    }
  }
}

=== FILE: risk.dfy ===
/**
 * predictHealthRisk: a weighted sum of concentration-to-limit ratios,
 * scaled by 20 and capped at 100, rounded, banded, and the list of metals
 * above their limit. The permissible limits (a table that may lack a metal
 * or hold 0 for it) and the health-risk weights are parameters.
 */
module Risk {
  import opened Wrappers
  import opened Numbers
  import opened Metals
  import opened Bands
  import opened Form

  /** permissibleLimits: a metal without an entry, or with 0, has no usable limit. */
  type Limits = map<Metal, real>

  /** getHealthRiskWeight. */
  type Weights = Metal -> real

  /** Scaling from weighted ratio sum to percentage. */
  const Scale: real := 20.0

  /** `permissibleLimits[metal]` is truthy. */
  predicate HasLimit(limits: Limits, m: Metal) {
    m in limits && limits[m] != 0.0
  }

  /** The metal enters the score: positive concentration and a usable limit. */
  predicate Counts(metals: Readings, limits: Limits, m: Metal) {
    metals.Get(m) > 0.0 && HasLimit(limits, m)
  }

  /** concentration / permissibleLimits[metal]. */
  function Ratio(metals: Readings, limits: Limits, m: Metal): real
    requires HasLimit(limits, m)
  {
    metals.Get(m) / limits[m]
  }

  /** The metal is reported as a risk factor: it counts and its ratio exceeds 1. */
  predicate Exceeds(metals: Readings, limits: Limits, m: Metal) {
    Counts(metals, limits, m) && Ratio(metals, limits, m) > 1.0
  }

  /** What the metal adds to the risk score: ratio times weight, or nothing. */
  function Contribution(metals: Readings, limits: Limits, weights: Weights, m: Metal): real {
    if Counts(metals, limits, m) then Ratio(metals, limits, m) * weights(m) else 0.0
  }

  /** The risk score accumulated over MetalOrder from index `k` on. */
  function ScoreFrom(metals: Readings, limits: Limits, weights: Weights, k: nat): real
    requires k <= |MetalOrder|
    decreases |MetalOrder| - k
  {
    if k == |MetalOrder| then 0.0
    else Contribution(metals, limits, weights, MetalOrder[k]) + ScoreFrom(metals, limits, weights, k + 1)
  }

  /** The accumulated risk score over all eight metals. */
  function Score(metals: Readings, limits: Limits, weights: Weights): real {
    ScoreFrom(metals, limits, weights, 0)
  }

  /** Limits present in the table are positive and no weight is negative. */
  predicate SaneStandards(limits: Limits, weights: Weights) {
    && (forall m :: m in limits ==> limits[m] > 0.0)
    && (forall m: Metal :: weights(m) >= 0.0)
  }

  /** One line of the risk-factor panel: the metal and the percentage it shows. */
  datatype RiskFactor = RiskFactor(metal: Metal, shownPercent: real)

  /** The metals of a factor list, in list order. */
  function MetalsOf(fs: seq<RiskFactor>): (ms: seq<Metal>)
    ensures |ms| == |fs| && forall i :: 0 <= i < |fs| ==> ms[i] == fs[i].metal
  {
    seq(|fs|, i requires 0 <= i < |fs| => fs[i].metal)
  }

  /**
   * The factor pushed for a metal above its limit: the number shown before
   * "% above limit" is the ratio times 100 to one decimal, not the excess
   * over the limit.
   */
  function FactorFor(metals: Readings, limits: Limits, m: Metal): (f: RiskFactor)
    requires HasLimit(limits, m)
    ensures f.metal == m
    ensures f.shownPercent == (Round(Shift(Ratio(metals, limits, m) * 100.0, 1)) as real) / 10.0
    ensures Ratio(metals, limits, m) * 100.0 - 0.05 <= f.shownPercent <= Ratio(metals, limits, m) * 100.0 + 0.05
  {
    assert Pow10(1) == 10.0;
    RiskFactor(m, ToFixed(Ratio(metals, limits, m) * 100.0, 1))
  }

  /**
   * Because the ratio is shown rather than the excess, every factor line
   * reports more than 99.95 "% above limit", however slightly the metal
   * exceeds its limit, and exceeds the true excess by about 100 points.
   */
  lemma FactorShowsRatio(metals: Readings, limits: Limits, m: Metal)
    requires Exceeds(metals, limits, m)
    ensures FactorFor(metals, limits, m).shownPercent > 99.95
    ensures FactorFor(metals, limits, m).shownPercent >= (Ratio(metals, limits, m) - 1.0) * 100.0 + 99.95
  {
  }

  /**
   * A lead reading of 0.015 against a lead limit of 0.01, 50% above the
   * limit, is reported as about 150% above it.
   */
  lemma FactorAtOneAndAHalf()
    ensures var metals := Tabulate((m: Metal) => 0.0).With(Lead, 0.015);
            var limits := map[Lead := 0.01];
            && Exceeds(metals, limits, Lead)
            && 149.95 <= FactorFor(metals, limits, Lead).shownPercent <= 150.05
  {
    var metals := Tabulate((m: Metal) => 0.0).With(Lead, 0.015);
    var limits := map[Lead := 0.01];
    assert metals.Get(Lead) == 0.015;
    assert Ratio(metals, limits, Lead) == 1.5;
  }

  /** The metals of a factor list with one factor in front. */
  lemma MetalsOfCons(f: RiskFactor, rest: seq<RiskFactor>)
    ensures forall m :: m in MetalsOf([f] + rest) <==> m == f.metal || m in MetalsOf(rest)
  {
    assert MetalsOf([f] + rest) == [f.metal] + MetalsOf(rest);
  }

  /**
   * The factors from index `k` on are exactly the metals from `k` on that
   * exceed their limit, in MetalOrder, each with its shown percentage.
   */
  predicate FactorsListed(metals: Readings, limits: Limits, k: nat, fs: seq<RiskFactor>) {
    && (forall m: Metal :: m in MetalsOf(fs) <==> k <= Index(m) && Exceeds(metals, limits, m))
    && (forall i, j :: 0 <= i < j < |fs| ==> Index(fs[i].metal) < Index(fs[j].metal))
    && (forall i :: 0 <= i < |fs| ==>
          && k <= Index(fs[i].metal)
          && Exceeds(metals, limits, fs[i].metal)
          && fs[i] == FactorFor(metals, limits, fs[i].metal))
  }

  /** A metal at index `k` that exceeds its limit goes in front of the list from `k + 1`. */
  lemma FactorsKeep(metals: Readings, limits: Limits, k: nat, rest: seq<RiskFactor>)
    requires k < |MetalOrder| && Exceeds(metals, limits, MetalOrder[k])
    requires FactorsListed(metals, limits, k + 1, rest)
    ensures FactorsListed(metals, limits, k, [FactorFor(metals, limits, MetalOrder[k])] + rest)
  {
    var m := MetalOrder[k];
    IndexOfOrder(k);
    var f := FactorFor(metals, limits, m);
    var fs := [f] + rest;
    MetalsOfCons(f, rest);
    forall n: Metal ensures n in MetalsOf(fs) <==> k <= Index(n) && Exceeds(metals, limits, n) {
      if Index(n) == k {
        assert n == m;
      }
    }
    forall i, j | 0 <= i < j < |fs| ensures Index(fs[i].metal) < Index(fs[j].metal) {
      assert fs[j] == rest[j - 1];
      if i > 0 {
        assert fs[i] == rest[i - 1];
      }
    }
    forall i | 0 <= i < |fs|
      ensures && k <= Index(fs[i].metal)
              && Exceeds(metals, limits, fs[i].metal)
              && fs[i] == FactorFor(metals, limits, fs[i].metal)
    {
      if i > 0 {
        assert fs[i] == rest[i - 1];
      }
    }
  }

  /** A metal at index `k` that does not exceed its limit leaves the list from `k + 1` as it is. */
  lemma FactorsSkip(metals: Readings, limits: Limits, k: nat, rest: seq<RiskFactor>)
    requires k < |MetalOrder| && !Exceeds(metals, limits, MetalOrder[k])
    requires FactorsListed(metals, limits, k + 1, rest)
    ensures FactorsListed(metals, limits, k, rest)
  {
    IndexOfOrder(k);
    forall n: Metal ensures n in MetalsOf(rest) <==> k <= Index(n) && Exceeds(metals, limits, n) {
      if Index(n) == k {
        assert n == MetalOrder[k];
      }
    }
  }

  /**
   * The risk factors over MetalOrder from index `k` on: exactly the metals
   * that exceed their limit, in MetalOrder.
   */
  function FactorsFrom(metals: Readings, limits: Limits, k: nat): (fs: seq<RiskFactor>)
    requires k <= |MetalOrder|
    ensures forall m: Metal :: m in MetalsOf(fs) <==> k <= Index(m) && Exceeds(metals, limits, m)
    ensures forall i, j :: 0 <= i < j < |fs| ==> Index(fs[i].metal) < Index(fs[j].metal)
    ensures forall i :: 0 <= i < |fs| ==>
              && k <= Index(fs[i].metal)
              && Exceeds(metals, limits, fs[i].metal)
              && fs[i] == FactorFor(metals, limits, fs[i].metal)
    decreases |MetalOrder| - k
  {
    if k == |MetalOrder| then
      assert forall m: Metal :: Index(m) < k;
      []
    else
      var m := MetalOrder[k];
      var rest := FactorsFrom(metals, limits, k + 1);
      if Exceeds(metals, limits, m) then
        FactorsKeep(metals, limits, k, rest);
        [FactorFor(metals, limits, m)] + rest
      else
        FactorsSkip(metals, limits, k, rest);
        rest
  }

  /** The result of one risk prediction. */
  datatype RiskAssessment = RiskAssessment(score: real, percentage: int, level: RiskLevel,
                                           factors: seq<RiskFactor>)

  /**
   * The scoring of predictHealthRisk: percentage = toFixed(0) of
   * min(score * 20, 100), banded on that rounded value, and the risk factors.
   */
  function Assess(metals: Readings, limits: Limits, weights: Weights): (a: RiskAssessment)
    ensures a.score == Score(metals, limits, weights)
    ensures a.percentage == Round(Min(a.score * Scale, 100.0))
    ensures a.percentage <= 100
    ensures (a.percentage as real) - 0.5 <= Min(a.score * Scale, 100.0) <= (a.percentage as real) + 0.5
    ensures a.level == RiskLevelOf(a.percentage)
    ensures forall m: Metal :: m in MetalsOf(a.factors) <==> Exceeds(metals, limits, m)
    ensures forall i, j :: 0 <= i < j < |a.factors| ==> Index(a.factors[i].metal) < Index(a.factors[j].metal)
    ensures forall i :: 0 <= i < |a.factors| ==>
              Exceeds(metals, limits, a.factors[i].metal)
              && a.factors[i] == FactorFor(metals, limits, a.factors[i].metal)
  {
    var score := Score(metals, limits, weights);
    var capped := Min(score * Scale, 100.0);
    RoundMonotone(capped, 100.0);
    assert Round(100.0) == 100;
    var pct := Round(capped);
    RiskAssessment(score, pct, RiskLevelOf(pct), FactorsFrom(metals, limits, 0))
  }

  /** With sane standards no metal takes anything away from the score. */
  lemma {:induction false} ScoreNonNegative(metals: Readings, limits: Limits, weights: Weights, k: nat)
    requires k <= |MetalOrder|
    requires SaneStandards(limits, weights)
    ensures ScoreFrom(metals, limits, weights, k) >= 0.0
    decreases |MetalOrder| - k
  {
    if k < |MetalOrder| {
      var m := MetalOrder[k];
      ScoreNonNegative(metals, limits, weights, k + 1);
      if Counts(metals, limits, m) {
        assert Ratio(metals, limits, m) > 0.0;
      }
    }
  }

  /** With sane standards the percentage is between 0 and 100. */
  lemma PercentageInRange(metals: Readings, limits: Limits, weights: Weights)
    requires SaneStandards(limits, weights)
    ensures 0 <= Assess(metals, limits, weights).percentage <= 100
  {
    ScoreNonNegative(metals, limits, weights, 0);
  }

  /**
   * Raising the concentration of `m` never lowers the contribution of any
   * metal `here`: that of `m` grows or stays, the others are untouched.
   */
  lemma ContributionMonotone(metals: Readings, limits: Limits, weights: Weights, m: Metal, v: real, here: Metal)
    requires SaneStandards(limits, weights)
    requires v >= metals.Get(m)
    ensures Contribution(metals.With(m, v), limits, weights, here) >= Contribution(metals, limits, weights, here)
  {
    if here != m {
      OtherContributionUnchanged(metals, limits, weights, m, v, here);
    } else if HasLimit(limits, m) {
      ContributionFormula(metals, limits, weights, m);
      ContributionFormula(metals.With(m, v), limits, weights, m);
      RatioTermMonotone(metals.Get(m), v, limits[m], weights(m));
    }
  }

  /** Changing the concentration of `m` leaves every other metal's contribution as it was. */
  lemma OtherContributionUnchanged(metals: Readings, limits: Limits, weights: Weights, m: Metal, v: real, here: Metal)
    requires here != m
    ensures Contribution(metals.With(m, v), limits, weights, here) == Contribution(metals, limits, weights, here)
  {
    assert metals.With(m, v).Get(here) == metals.Get(here);
  }

  /** A metal with a usable limit contributes concentration / limit * weight when present. */
  lemma ContributionFormula(metals: Readings, limits: Limits, weights: Weights, m: Metal)
    requires HasLimit(limits, m)
    ensures Contribution(metals, limits, weights, m) ==
            if metals.Get(m) > 0.0 then metals.Get(m) / limits[m] * weights(m) else 0.0
  {
  }

  /** The contribution formula, as a function of the concentration alone, never decreases. */
  lemma RatioTermMonotone(c: real, v: real, limit: real, w: real)
    requires c <= v && limit > 0.0 && w >= 0.0
    ensures (if v > 0.0 then v / limit * w else 0.0) >= (if c > 0.0 then c / limit * w else 0.0)
  {
    DivideMonotone(c, v, limit);
    MultiplyMonotone(c / limit, v / limit, w);
    if v > 0.0 {
      DivideMonotone(0.0, v, limit);
      MultiplyMonotone(0.0, v / limit, w);
    }
  }

  /** a <= b and w >= 0 give a * w <= b * w. */
  lemma MultiplyMonotone(a: real, b: real, w: real)
    requires a <= b && w >= 0.0
    ensures a * w <= b * w
  {
    assert b * w - a * w == (b - a) * w;
  }

  /** a <= b and p > 0 give a / p <= b / p. */
  lemma DivideMonotone(a: real, b: real, p: real)
    requires a <= b && p > 0.0
    ensures a / p <= b / p
  {
    assert b / p - a / p == (b - a) / p;
  }

  /**
   * Raising one concentration while holding the others fixed never lowers
   * the risk score, given sane standards.
   */
  lemma {:induction false} ScoreMonotone(metals: Readings, limits: Limits, weights: Weights, m: Metal, v: real, k: nat)
    requires k <= |MetalOrder|
    requires SaneStandards(limits, weights)
    requires v >= metals.Get(m)
    ensures ScoreFrom(metals.With(m, v), limits, weights, k) >= ScoreFrom(metals, limits, weights, k)
    decreases |MetalOrder| - k
  {
    if k < |MetalOrder| {
      ScoreMonotone(metals, limits, weights, m, v, k + 1);
      ContributionMonotone(metals, limits, weights, m, v, MetalOrder[k]);
    }
  }

  /** ... and so never lowers the percentage or the risk level either. */
  lemma LevelMonotone(metals: Readings, limits: Limits, weights: Weights, m: Metal, v: real)
    requires SaneStandards(limits, weights)
    requires v >= metals.Get(m)
    ensures Assess(metals, limits, weights).percentage <= Assess(metals.With(m, v), limits, weights).percentage
    ensures RiskRank(Assess(metals, limits, weights).level) <= RiskRank(Assess(metals.With(m, v), limits, weights).level)
  {
    var lo := Score(metals, limits, weights);
    var hi := Score(metals.With(m, v), limits, weights);
    ScoreMonotone(metals, limits, weights, m, v, 0);
    MultiplyMonotone(lo, hi, Scale);
    RoundMonotone(Min(lo * Scale, 100.0), Min(hi * Scale, 100.0));
    RiskLevelMonotone(Assess(metals, limits, weights).percentage, Assess(metals.With(m, v), limits, weights).percentage);
  }

  /** When no metal counts, the score is 0 and the level is Low. */
  lemma {:induction false} NothingCountsIsLowRisk(metals: Readings, limits: Limits, weights: Weights, k: nat)
    requires k <= |MetalOrder|
    requires forall m: Metal :: !Counts(metals, limits, m)
    ensures ScoreFrom(metals, limits, weights, k) == 0.0
    ensures k == 0 ==> Assess(metals, limits, weights).level == LowRisk
    decreases |MetalOrder| - k
  {
    if k < |MetalOrder| {
      NothingCountsIsLowRisk(metals, limits, weights, k + 1);
    }
    if k == 0 {
      assert Round(0.0) == 0;
    }
  }

  /** What the risk-factor panel shows. */
  datatype FactorPanel = AllWithinLimits | Warnings(factors: seq<RiskFactor>)

  /** The panel: the warnings when there are any, else the "within acceptable limits" line. */
  function Panel(a: RiskAssessment): (p: FactorPanel)
    ensures p.Warnings? ==> p.factors == a.factors && |p.factors| > 0
  {
    if |a.factors| > 0 then Warnings(a.factors) else AllWithinLimits
  }

  /** The panel shows "within acceptable limits" exactly when no metal exceeds its limit. */
  lemma PanelWithinLimitsIff(metals: Readings, limits: Limits, weights: Weights)
    ensures Panel(Assess(metals, limits, weights)) == AllWithinLimits <==>
            forall m: Metal :: !Exceeds(metals, limits, m)
  {
    var a := Assess(metals, limits, weights);
    if |a.factors| > 0 {
      assert MetalsOf(a.factors)[0] in MetalsOf(a.factors);
    }
  }

  /** The form's metal fields, each parsed or 0. */
  function FormReadings(fields: PerMetal<string>, parse: Parser): (r: Readings)
    ensures forall m: Metal :: r.Get(m) == ParseOr0(parse, fields.Get(m))
    ensures forall m: Metal :: fields.Get(m) == "" ==> r.Get(m) == 0.0
  {
    Tabulate((m: Metal) => ParseOr0(parse, fields.Get(m)))
  }

  /**
   * predictHealthRisk: nothing when the form fails validation, otherwise the
   * assessment of the form's readings.
   */
  function PredictHealthRisk(form: FormFields, parse: Parser, limits: Limits, weights: Weights)
    : (r: Option<RiskAssessment>)
    ensures r.None? <==> ValidateFormData(form, parse) != Valid
    ensures r.Some? ==> r.value == Assess(FormReadings(form.metals, parse), limits, weights)
    ensures r.Some? ==> exists m: Metal :: FormReadings(form.metals, parse).Get(m) > 0.0
  {
    if ValidateFormData(form, parse) != Valid then None
    else
      var metals := FormReadings(form.metals, parse);
      var j :| 0 <= j < |MetalOrder| && IsPositiveReading(parse, form.metals.Get(MetalOrder[j]));
      assert metals.Get(MetalOrder[j]) > 0.0;
      Some(Assess(metals, limits, weights))
  }
}

=== FILE: roundtrip.dfy ===
/**
 * What an import hands to the export: a collection built from CSV text
 * exports as one well-formed line per sample.
 */
module Roundtrip {
  import opened Text
  import opened Samples
  import opened Ingest
  import opened Report

  /**
   * After importing CSV text into an empty collection, with at least one
   * row accepted, the export of the imported samples reads back: the
   * header, one line per sample, and each sample line splitting at commas
   * into exactly that sample's fields.
   */
  lemma ImportThenExport(text: string, env: Env, show: real -> string)
    requires CsvSafe(env.today)
    requires forall x: real :: CsvSafe(show(x))
    ensures Import([], text, env).processed > 0 ==> ReadsBack(Import([], text, env).data, show)
  {
    var r := Import([], text, env);
    if r.processed > 0 {
      assert |r.data| > 0 && ExportSafe(r.data) by {
        ImportedSafe([], text, env);
      }
      ExportShape(r.data, show);
    }
  }
}

=== FILE: samples.dfy ===
/**
 * A water sample as the application stores it in its `waterQualityData`
 * collection, and the index engine that derives its HPI, HEI and Cd.
 */
module Samples {
  import opened Text
  import opened Metals

  /** The three pollution indices computed for a sample. */
  datatype Indices = Indices(hpi: real, hei: real, cd: real)

  /** One measurement at one location. */
  datatype Sample = Sample(
    location: string,
    latitude: real,
    longitude: real,
    date: string,
    metals: Readings,
    indices: Indices)

  /**
   * calculateHPI, calculateHEI and calculateContaminationDegree: the formulas
   * are not part of this model, only the fact that each maps readings to a number.
   */
  datatype IndexEngine = IndexEngine(hpi: Readings -> real, hei: Readings -> real, cd: Readings -> real)
  {
    /** The index set the application attaches to a sample with these readings. */
    function Compute(metals: Readings): (r: Indices)
      ensures r.hpi == hpi(metals) && r.hei == hei(metals) && r.cd == cd(metals)
    {
      Indices(hpi(metals), hei(metals), cd(metals))
    }
  }

  /** Every sample's location and date fit in one CSV cell. */
  predicate ExportSafe(data: seq<Sample>) {
    forall i :: 0 <= i < |data| ==> CsvSafe(data[i].location) && CsvSafe(data[i].date)
  }
}

=== FILE: seqs.dfy ===
/** Keeping and transforming elements of a sequence in one pass, as a filter-then-map does. */
module Seqs {
  import opened Wrappers

  /** The values `f` yields on the elements of `xs`, in the order of `xs`. */
  function FilterMap<A, B>(f: A -> Option<B>, xs: seq<A>): (r: seq<B>)
    ensures |r| <= |xs|
  {
    if |xs| == 0 then []
    else FilterMap(f, xs[..|xs| - 1]) + (if f(xs[|xs| - 1]).Some? then [f(xs[|xs| - 1]).value] else [])
  }

  /** FilterMap distributes over concatenation, so the order of `xs` is kept. */
  lemma {:induction false} FilterMapAppend<A, B>(f: A -> Option<B>, a: seq<A>, b: seq<A>)
    ensures FilterMap(f, a + b) == FilterMap(f, a) + FilterMap(f, b)
    decreases |b|
  {
    if |b| > 0 {
      var ab := a + b;
      assert ab[..|ab| - 1] == a + b[..|b| - 1];
      assert ab[|ab| - 1] == b[|b| - 1];
      FilterMapAppend(f, a, b[..|b| - 1]);
    } else {
      assert a + b == a;
    }
  }

  /** A value is in the result exactly when some element yields it. */
  lemma {:induction false} FilterMapMembership<A, B>(f: A -> Option<B>, xs: seq<A>, y: B)
    ensures y in FilterMap(f, xs) <==> exists i :: 0 <= i < |xs| && f(xs[i]) == Some(y)
    decreases |xs|
  {
    if |xs| > 0 {
      var init := xs[..|xs| - 1];
      FilterMapMembership(f, init, y);
      if exists i :: 0 <= i < |init| && f(init[i]) == Some(y) {
        var i :| 0 <= i < |init| && f(init[i]) == Some(y);
        assert xs[i] == init[i];
      }
      if exists i :: 0 <= i < |xs| && f(xs[i]) == Some(y) {
        var i :| 0 <= i < |xs| && f(xs[i]) == Some(y);
        if i < |init| {
          assert init[i] == xs[i];
        }
      }
    }
  }

  /** Nothing is dropped exactly when every element yields a value. */
  lemma {:induction false} FilterMapKeepsAll<A, B>(f: A -> Option<B>, xs: seq<A>)
    ensures |FilterMap(f, xs)| == |xs| <==> forall i :: 0 <= i < |xs| ==> f(xs[i]).Some?
    decreases |xs|
  {
    if |xs| > 0 {
      var init := xs[..|xs| - 1];
      FilterMapKeepsAll(f, init);
      assert forall i :: 0 <= i < |init| ==> init[i] == xs[i];
    }
  }

  /** Everything is dropped exactly when no element yields a value. */
  lemma {:induction false} FilterMapDropsAll<A, B>(f: A -> Option<B>, xs: seq<A>)
    ensures FilterMap(f, xs) == [] <==> forall i :: 0 <= i < |xs| ==> f(xs[i]).None?
    decreases |xs|
  {
    if |xs| > 0 {
      var init := xs[..|xs| - 1];
      FilterMapDropsAll(f, init);
      assert forall i :: 0 <= i < |init| ==> init[i] == xs[i];
    }
  }

  /** When every element yields itself, nothing changes. */
  lemma {:induction false} FilterMapIdentity<A>(f: A -> Option<A>, xs: seq<A>)
    requires forall i :: 0 <= i < |xs| ==> f(xs[i]) == Some(xs[i])
    ensures FilterMap(f, xs) == xs
    decreases |xs|
  {
    if |xs| > 0 {
      var init := xs[..|xs| - 1];
      assert forall i :: 0 <= i < |init| ==> init[i] == xs[i];
      FilterMapIdentity(f, init);
      assert init + [xs[|xs| - 1]] == xs;
    }
  }
}

=== FILE: text.dfy ===
/**
 * The string operations the importer relies on: String.prototype.trim,
 * toLowerCase and split, over `string` = `seq<char>`.
 */
module Text {

  /** The white-space and line-terminator characters that String.prototype.trim strips. */
  predicate IsSpace(c: char) {
    || c == ' ' || c == '\t' || c == '\n' || c == '\r'
    || c == '\U{B}' || c == '\U{C}' || c == '\U{A0}' || c == '\U{1680}'
    || ('\U{2000}' <= c <= '\U{200A}')
    || c == '\U{2028}' || c == '\U{2029}' || c == '\U{202F}' || c == '\U{205F}'
    || c == '\U{3000}' || c == '\U{FEFF}'
  }

  /** A string made only of white space (the empty string included). */
  predicate IsBlank(s: string) {
    forall i :: 0 <= i < |s| ==> IsSpace(s[i])
  }

  /** The first position at or after `i` that is not white space (|s| when there is none). */
  function SkipSpace(s: string, i: nat): (k: nat)
    requires i <= |s|
    ensures i <= k <= |s|
    ensures forall j :: i <= j < k ==> IsSpace(s[j])
    ensures k < |s| ==> !IsSpace(s[k])
    decreases |s| - i
  {
    if i < |s| && IsSpace(s[i]) then SkipSpace(s, i + 1) else i
  }

  /** The end of `s[lo..hi]` once its trailing white space is dropped. */
  function SkipSpaceBack(s: string, lo: nat, hi: nat): (k: nat)
    requires lo <= hi <= |s|
    ensures lo <= k <= hi
    ensures forall j :: k <= j < hi ==> IsSpace(s[j])
    ensures k > lo ==> !IsSpace(s[k - 1])
    decreases hi
  {
    if hi > lo && IsSpace(s[hi - 1]) then SkipSpaceBack(s, lo, hi - 1) else hi
  }

  /** Where the trimmed text of `s` starts. */
  function TrimFrom(s: string): nat
    ensures TrimFrom(s) <= |s|
  {
    SkipSpace(s, 0)
  }

  /** Where the trimmed text of `s` ends. */
  function TrimTo(s: string): nat
    ensures TrimFrom(s) <= TrimTo(s) <= |s|
  {
    SkipSpaceBack(s, TrimFrom(s), |s|)
  }

  /**
   * String.prototype.trim: the infix of `s` that neither starts nor ends with
   * white space, everything cut away around it being white space.
   */
  function Trim(s: string): (r: string)
    ensures r == s[TrimFrom(s)..TrimTo(s)]
    ensures forall j :: 0 <= j < TrimFrom(s) ==> IsSpace(s[j])
    ensures forall j :: TrimTo(s) <= j < |s| ==> IsSpace(s[j])
    ensures r == [] || (!IsSpace(r[0]) && !IsSpace(r[|r| - 1]))
    ensures r == [] <==> IsBlank(s)
  {
    s[TrimFrom(s)..TrimTo(s)]
  }

  /** String.prototype.toLowerCase on one character (ASCII letters only). */
  function LowerChar(c: char): (d: char)
    ensures !('A' <= d <= 'Z')
    ensures 'A' <= c <= 'Z' ==> d as int == c as int + 32
    ensures !('A' <= c <= 'Z') ==> d == c
  {
    if 'A' <= c <= 'Z' then (c as int + 32) as char else c
  }

  /** String.prototype.toLowerCase: same length, no upper-case ASCII letter left. */
  function Lower(s: string): (r: string)
    ensures |r| == |s|
    ensures forall i :: 0 <= i < |s| ==> r[i] == LowerChar(s[i])
    ensures forall i :: 0 <= i < |r| ==> !('A' <= r[i] <= 'Z')
  {
    seq(|s|, i requires 0 <= i < |s| => LowerChar(s[i]))
  }

  /**
   * String.prototype.split with a one-character separator: the maximal
   * separator-free pieces, in order. The empty string splits into one empty piece.
   */
  function Split(s: string, sep: char): (parts: seq<string>)
    ensures |parts| >= 1
    ensures forall i :: 0 <= i < |parts| ==> sep !in parts[i]
  {
    if |s| == 0 then [[]]
    else
      var rest := Split(s[1..], sep);
      if s[0] == sep then [[]] + rest
      else [[s[0]] + rest[0]] + rest[1..]
  }

  /** Array.prototype.join with a one-character separator. */
  function Join(parts: seq<string>, sep: char): string
    requires |parts| >= 1
  {
    if |parts| == 1 then parts[0] else parts[0] + [sep] + Join(parts[1..], sep)
  }

  /** Joining the pieces of a split gives back the original string. */
  lemma {:induction false} JoinSplit(s: string, sep: char)
    ensures Join(Split(s, sep), sep) == s
    decreases |s|
  {
    if |s| > 0 {
      var rest := Split(s[1..], sep);
      JoinSplit(s[1..], sep);
      if s[0] == sep {
        assert Split(s, sep)[1..] == rest;
      } else {
        var parts := Split(s, sep);
        if |rest| == 1 {
          assert parts == [[s[0]] + rest[0]];
        } else {
          assert parts[1..] == rest[1..];
          assert Join(rest, sep) == rest[0] + [sep] + Join(rest[1..], sep);
        }
        assert s == [s[0]] + s[1..];
      }
    }
  }

  /** A separator-free string splits into itself alone. */
  lemma {:induction false} SplitNoSeparator(a: string, sep: char)
    requires sep !in a
    ensures Split(a, sep) == [a]
    decreases |a|
  {
    if |a| > 0 {
      SplitNoSeparator(a[1..], sep);
      assert [a[0]] + a[1..] == a;
    }
  }

  /** A separator-free prefix followed by the separator is split off as the first piece. */
  lemma {:induction false} SplitPrefix(a: string, sep: char, t: string)
    requires sep !in a
    ensures Split(a + [sep] + t, sep) == [a] + Split(t, sep)
    decreases |a|
  {
    if |a| == 0 {
      assert a + [sep] + t == [sep] + t;
      assert ([sep] + t)[1..] == t;
    } else {
      var s := a + [sep] + t;
      assert s[1..] == a[1..] + [sep] + t;
      SplitPrefix(a[1..], sep, t);
      assert [a[0]] + a[1..] == a;
    }
  }

  /** Splitting a join of separator-free pieces gives back exactly those pieces. */
  lemma {:induction false} SplitJoin(parts: seq<string>, sep: char)
    requires |parts| >= 1
    requires forall i :: 0 <= i < |parts| ==> sep !in parts[i]
    ensures Split(Join(parts, sep), sep) == parts
    decreases |parts|
  {
    if |parts| == 1 {
      SplitNoSeparator(parts[0], sep);
    } else {
      SplitJoin(parts[1..], sep);
      SplitPrefix(parts[0], sep, Join(parts[1..], sep));
      assert [parts[0]] + parts[1..] == parts;
    }
  }

  /** Text that can sit in one CSV cell: no comma and no line break. */
  predicate CsvSafe(s: string) {
    ',' !in s && '\n' !in s
  }

  /** A character absent from a string is absent from every piece of its split. */
  lemma {:induction false} SplitKeepsAbsent(s: string, sep: char, c: char)
    requires c !in s
    ensures forall i :: 0 <= i < |Split(s, sep)| ==> c !in Split(s, sep)[i]
    decreases |s|
  {
    if |s| > 0 {
      SplitKeepsAbsent(s[1..], sep, c);
      var rest := Split(s[1..], sep);
      if s[0] != sep {
        assert c !in [s[0]] + rest[0];
      }
    }
  }

  /** A character absent from a string is absent from its trimmed text. */
  lemma TrimKeepsAbsent(s: string, c: char)
    requires c !in s
    ensures c !in Trim(s)
  {
    var r := Trim(s);
    forall k | 0 <= k < |r| ensures r[k] != c {
      assert r[k] == s[TrimFrom(s) + k];
    }
  }
}

=== FILE: wrappers.dfy ===
/** Optional values and results shared by every module. */
module Wrappers {

  /** A value that may be absent: JavaScript's NaN or undefined becomes None. */
  datatype Option<+T> = None | Some(value: T) {

    /** The value, or the given default when absent. */
    function GetOr(default: T): T {
      match this
      case Some(v) => v
      case None => default
    }
  }

  /** Either a computed value or the reason the operation refused to run. */
  datatype Result<+R, +E> = Success(value: R) | Failure(error: E)
}
